=== FILE: README.md ===
# Admin console session and form logic, in Dafny

This project models the stateful core of a React Native admin console in which
a super-admin manages branches and branch-admin accounts, and a branch admin
works through complaints. Nearly all of the application is HTTP and UI
plumbing. What is modelled here is the sequential logic between the calls:

- **Session state machine** (`AppSession`, `app_session.dfy`). The state is
  `(isLoading, userToken, userRole)`, with three transitions:
  - the boot-time credential read;
  - `signIn`;
  - `signOut`.

  The persisted credential store (`CredentialStore`) is a two-key map. Whether
  each `getItem`/`setItem`/`removeItem` call throws is an input, so the
  failure behaviour of each transition is stated statement by statement.
- **Role router** (`AppSession.Route`). It is a pure function from the session
  to the view to mount: the loading view, the login stack, the super-admin
  tree or the normal-admin tree. In `App.js` the router ternary is commented
  out and the component returns a `<View>` holding bare text instead.
  `Route` models the intended router. `LiveRender` models the element the
  component returns as it stands.
- **Login gate** (`LoginScreen`). The truthiness check on the response's token
  and role before `signIn` is called.
- **Form logic** of the admin and branch management screens:
  - validation, checked in order;
  - the mutually exclusive permission switches;
  - form reset and edit prefill;
  - the create (POST) versus update (PUT) request and its payload;
  - the picker option lists.
- **Filter-to-parameter mapping** of the complaint list and the dashboard.
  The `'all'` sentinel and a blank search both become null. Also modelled:
  - the fetch-to-form initialisation of the complaint detail screen;
  - its status-change guard;
  - the render-state choice of each screen.

Each HTTP request is an input of type `Outcome` (`Ok(data)` or `Err(message)`),
where the message is the server's `error.response?.data?.message`. Each
handler runs to completion atomically.

JavaScript semantics are spelled out:

- `null` and `undefined` are both `Option.None`: the screens test them with
  `== null` or by truthiness. The one place the two differ is a JSON request
  body, where an `undefined` field is dropped and a `null` one is sent. The
  model keeps that distinction field by field: `AdminPayload.password` is
  `None` when the key is omitted (`password || undefined`), while `branchId`
  and `assignedAdminId` are `None` when `null` is sent.
- `x.trim()` is empty exactly when every character is ECMAScript white space
  (`Common.TrimEmptyIffBlank`).
- A falsy id (`0`) collapses to null under `id || null`.
- `date.toISOString().split('T')[0]` is modelled on the ISO text of the date.

## Behaviour worth knowing

The model follows the code as written, including these behaviours:

- **Failed sign-out.** A `removeItem` that throws ends `signOut` before the
  session is cleared: the in-memory token and role stay, and `isLoading`
  stays true (`SignOut`, `FailedTransitionStuckLoading`).
- **Half-populated session.** Boot yields a token without a role when the
  store holds only a token, or when the role read throws. The router then
  mounts the normal-admin tree (`BootstrapCanHalfPopulate`).
- **Stale role after a failed sign-in.** A sign-in whose role write throws
  leaves the new token next to the previously stored role. After a restart,
  that old role decides the tree (`TornSignInKeepsStaleRole`).
- **No checks inside `signIn`.** `signIn` does not validate its arguments.
  The only gate is `handleLogin`'s truthiness check. Any truthy role other
  than `super_admin` routes to the normal-admin tree.
- **Bare text in the root view.** Once `isLoading` is false, `App.js` returns
  a `<View>` whose child is the bare string "Hello, this is the App
  component!" (lines 65-67). React Native accepts text only inside `<Text>`,
  so as written that render throws ("Text strings must be rendered within a
  <Text> component") whatever the session holds. `LiveRender` names the
  element the component returns; it does not model that error.
- **Missing imports.** `src/screens/SuperAdmin/DashboardScreen.js` renders
  `TouchableOpacity` (line 73) and `ActivityIndicator` (line 116), and
  `src/screens/SuperAdmin/BranchManagementScreen.js` renders `Picker`
  (line 197), without importing them. As the files stand, each screen throws
  a `ReferenceError` on its first render, so its fetch effect never runs.
  `Dashboard.Render` and `BranchManagement.AdminPickerItems` model the screens
  with those imports in place (see "Left out").

## Model

| member | source | states |
|---|---|---|
| AppSession.Initial | App.js:11-13 | the first state is loading with no token and no role |
| AppSession.Bootstrap | App.js:38-50 | boot always ends loading; with both reads succeeding the session holds exactly the stored token and role; a throwing token read leaves both absent; a throwing role read keeps the token and leaves the role absent |
| AppSession.SignIn | App.js:16-23 | completes exactly when both writes succeed, leaving store and memory holding the given pair and loading off; a failed write leaves memory's token and role unchanged with loading stuck on; a failed role write persists the new token beside the old role |
| AppSession.SignOut | App.js:24-31 | completes exactly when both removals succeed, leaving store and memory empty and loading off; a failed removal leaves memory unchanged with loading on, and a failed role removal has already removed the token |
| AppSession.Route | App.js:55-77 | each view is chosen exactly under its condition, first match wins: loading, then a null token (login stack), then the super-admin tag, then any other role (normal-admin tree) |
| AppSession.LiveRender | App.js:55-68 | as the component stands, it returns the loading view exactly while loading and otherwise the bare-text `<View>` element, never a navigation tree |
| AppSession.LiveRenderMatchesRouteOnlyWhileLoading | App.js:55-77 | the element returned as the component stands agrees with the intended router exactly while loading; afterwards the router would mount a tree and the component returns the bare-text element |
| AppSession.InitialShowsLoading | App.js:11-13 | the first frame is the loading view under both renders |
| AppSession.BootstrapReachesSteadyTree | App.js:41-50 | after boot, whatever the store holds and whichever reads throw, the router mounts one of the three trees |
| AppSession.RestartAfterSignInRestores | App.js:16-23 | a completed sign-in followed by a fault-free boot restores exactly the signed-in session |
| AppSession.RestartAfterSignOutShowsLogin | App.js:24-31 | a completed sign-out followed by a fault-free boot shows the login stack |
| AppSession.SignInRoutesByRole | App.js:70-77 | after a completed sign-in the super-admin tree is mounted exactly for `super_admin`, and the normal-admin tree for every other role |
| AppSession.SignInIdempotent | App.js:16-23 | signing in twice with the same arguments gives the same session and store as signing in once |
| AppSession.SignOutShowsLogin | App.js:24-31 | a completed sign-out mounts the login stack, whatever the prior session |
| AppSession.FailedTransitionStuckLoading | App.js:16-31 | a sign-in or sign-out with any throwing storage call leaves the loading view up |
| AppSession.BootstrapCanHalfPopulate | App.js:41-48 | boot can produce a token with no role, and the router sends that session to the normal-admin tree |
| AppSession.TornSignInKeepsStaleRole | App.js:17-21 | a sign-in as a normal admin whose role write throws, over a stored super-admin session, restarts into the super-admin tree with the new token |
| CredentialStore.GetItem | App.js:42-43 | a read throws exactly when it is set to fail, and otherwise yields the stored value or null |
| CredentialStore.SetItem | App.js:18-19 | a write throws exactly when it is set to fail, and otherwise stores the value and leaves the other key alone |
| CredentialStore.RemoveItem | App.js:26-27 | a removal throws exactly when it is set to fail, and otherwise removes the key and leaves the other key alone |
| LoginScreen.HandleLogin | src/screens/Auth/LoginScreen.js:11-31 | `signIn` is called exactly when the response carries a user with a truthy token and role; otherwise session and store are untouched and a "Login Failed" alert is raised, with the missing-credentials text for falsy credentials and 'Something went wrong.' for a response with no `user`; a request failure shows the server message or 'Something went wrong.'; a completed sign-in holds exactly the response's token and `user.role`; a sign-in whose storage write throws leaves the session loading with its old pair and shows 'Something went wrong.' |
| LoginScreen.LoginRejectsMissingCredentials | src/screens/Auth/LoginScreen.js:22-26 | an absent or empty token or role never signs in, keeps the router's choice, and raises the missing-credentials alert |
| LoginScreen.LoginEstablishesNonEmptyCredentials | src/screens/Auth/LoginScreen.js:19-23 | every session a successful login establishes has a non-empty token and role, matching the store, and is routed by that role |
| Common.MessageOr | src/screens/Auth/LoginScreen.js:29 | an error alert shows the server message when it is non-empty, else the fallback text |
| Common.IdOrNull | src/screens/SuperAdmin/AdminManagementScreen.js:154 | an id or null: exactly the truthy ids are kept and the rest become null |
| Common.TrimEmptyIffBlank | src/screens/SuperAdmin/AdminManagementScreen.js:55 | a string trims to empty exactly when every character is ECMAScript white space |
| Common.SpaceRunEnd | src/screens/SuperAdmin/AdminManagementScreen.js:55 | the leading white-space run ends at the first non-space character or the end of the string |
| Common.SpaceRunStart | src/screens/SuperAdmin/AdminManagementScreen.js:55 | the trailing white-space run starts just after the last non-space character or at the start of the string |
| Common.BeforeFirst | src/screens/NormalAdmin/ComplaintListScreen.js:37 | `split(c)[0]` is the longest prefix without `c`, followed in the input by `c` or the end |
| Common.IsoDayOfIsoText | src/screens/NormalAdmin/ComplaintListScreen.js:37 | on ISO text `day + "T" + time`, the date parameter is exactly `day` |
| AdminManagement.InitialScreen | src/screens/SuperAdmin/AdminManagementScreen.js:21-31 | the screen starts loading, with empty lists, a closed modal and a blank create-mode form |
| AdminManagement.ResetForm | src/screens/SuperAdmin/AdminManagementScreen.js:158-165 | reset gives empty name, email and password, no permissions, active, no branch, and keeps the admin being edited |
| AdminManagement.OpenCreateModal | src/screens/SuperAdmin/AdminManagementScreen.js:142-146 | the modal opens in create mode on a reset form; the lists and the loading flags are unchanged |
| AdminManagement.OpenEditModal | src/screens/SuperAdmin/AdminManagementScreen.js:148-156 | the modal opens in edit mode with name, email and active copied; missing permissions become both-off; a falsy branch id becomes null; the password is left as it was; the lists and the loading flags are unchanged |
| AdminManagement.OpenEditModalClearingPassword | src/screens/SuperAdmin/AdminManagementScreen.js:148-156 | the same prefill with the hidden password field cleared, so the edit request it leads to carries no password |
| AdminManagement.CancelModal | src/screens/SuperAdmin/AdminManagementScreen.js:295 | Cancel hides the modal and keeps every form field, the password included, the lists and the loading flags |
| AdminManagement.RequestCloseModal | src/screens/SuperAdmin/AdminManagementScreen.js:221-224 | the back button toggles the modal and resets the form, keeping the admin being edited, the lists and the loading flags |
| AdminManagement.ToggleViewOnly | src/screens/SuperAdmin/AdminManagementScreen.js:257-262 | the switch sets view-only; turning it on clears full access, and turning it off keeps full access; both are never on afterwards |
| AdminManagement.ToggleFullAccess | src/screens/SuperAdmin/AdminManagementScreen.js:266-271 | the switch sets full access; turning it on clears view-only, and turning it off keeps view-only; both are never on afterwards |
| AdminManagement.Validate | src/screens/SuperAdmin/AdminManagementScreen.js:55-66 | checks name/email, then password (create mode only), then permissions; each failure is reported exactly when the earlier checks pass and its own fails, and the form passes exactly when all three hold |
| AdminManagement.BuildRequest | src/screens/SuperAdmin/AdminManagementScreen.js:69-86 | edit mode sends PUT to the edited admin's id and create mode sends POST; the password is omitted exactly when it is empty; the other fields are copied verbatim |
| AdminManagement.Submit | src/screens/SuperAdmin/AdminManagementScreen.js:54-94 | a request goes out exactly for a valid form, otherwise the screen is unchanged with the validation message; success closes the modal, resets the form, keeps the lists, refreshes, and says 'Admin account updated successfully.' in edit mode or 'Admin account created successfully.' in create mode; failure keeps the screen and shows the server message or 'Failed to save admin.' |
| AdminManagement.BranchOptions | src/screens/SuperAdmin/AdminManagementScreen.js:44 | the branch list is the null "No Branch Assigned" entry followed by the fetched branches in order |
| AdminManagement.BranchPickerItems | src/screens/SuperAdmin/AdminManagementScreen.js:285-291 | one item per option in order, plus an item labelled with the edited admin's `branch_name` and valued with its branch id exactly when that id is truthy and no option carries it, so that branch is always selectable |
| AdminManagement.PermissionLabel | src/screens/SuperAdmin/AdminManagementScreen.js:178 | 'Full Access' exactly when full access is set, 'View Only' exactly when only view-only is set, else 'None' |
| AdminManagement.FetchAdminsAndBranches | src/screens/SuperAdmin/AdminManagementScreen.js:38-52 | loading and refreshing end either way; both lists are replaced only when both requests succeed, the branch list then being the null "No Branch Assigned" entry followed by the fetched branches; otherwise both are kept and an error alert is raised |
| AdminManagement.ResetFormIsRejected | src/screens/SuperAdmin/AdminManagementScreen.js:55-58 | a freshly reset form always fails the name/email check |
| AdminManagement.CreateModalSubmitSendsNothing | src/screens/SuperAdmin/AdminManagementScreen.js:142-146 | submitting right after opening the create modal sends nothing and keeps the modal open |
| AdminManagement.PasswordOnlyRequiredOnCreate | src/screens/SuperAdmin/AdminManagementScreen.js:59-62 | with name and email present, the password error arises exactly in create mode with a blank password, and never in edit mode |
| AdminManagement.EditedAdminSubmitsUpdate | src/screens/SuperAdmin/AdminManagementScreen.js:148-156 | editing an admin that has a name, an email and a permission passes validation with any password and issues a PUT to that admin's id; with the password cleared on opening, the PUT carries exactly the admin's own fields and no password |
| AdminManagement.SwitchesNeverBothOn | src/screens/SuperAdmin/AdminManagementScreen.js:259-270 | any pair of switch changes leaves at most one permission on, and view-only switched on then off clears both |
| AdminManagement.StalePasswordReachesUpdate | src/screens/SuperAdmin/AdminManagementScreen.js:69-80 | a password typed into the create form, followed by Cancel and editing another admin, is sent in that admin's PUT; closing with the back button instead sends none |
| AdminManagement.PermissionLabelMatchesSwitches | src/screens/SuperAdmin/AdminManagementScreen.js:178 | the label names the switch just turned on, and reads 'None' exactly when validation reports the missing permission |
| AdminManagement.FetchedPickerOffersResetBranch | src/screens/SuperAdmin/AdminManagementScreen.js:44 | after a successful fetch the first picker item is the null "No Branch Assigned" entry, so the reset form's branch is selectable, and each fetched branch follows in order |
| BranchManagement.InitialScreen | src/screens/SuperAdmin/BranchManagementScreen.js:19-27 | the screen starts loading, with empty lists, a closed modal and a blank create-mode form |
| BranchManagement.ResetForm | src/screens/SuperAdmin/BranchManagementScreen.js:120-124 | reset empties name and address, selects no admin, and keeps the branch being edited |
| BranchManagement.OpenCreateModal | src/screens/SuperAdmin/BranchManagementScreen.js:106-110 | the modal opens in create mode on a reset form; the lists and the loading flags are unchanged |
| BranchManagement.OpenEditModal | src/screens/SuperAdmin/BranchManagementScreen.js:112-118 | the modal opens in edit mode with name and address copied and the branch's admin pre-selected, or none when its id is falsy; the lists and the loading flags are unchanged |
| BranchManagement.Validate | src/screens/SuperAdmin/BranchManagementScreen.js:50-53 | the form passes exactly when neither name nor address is blank |
| BranchManagement.BuildRequest | src/screens/SuperAdmin/BranchManagementScreen.js:56-72 | edit mode sends PUT to the edited branch's id and create mode sends POST, with name, address and the selected admin as `assigned_admin_id` |
| BranchManagement.Submit | src/screens/SuperAdmin/BranchManagementScreen.js:49-80 | a request goes out exactly when name and address are non-blank; success closes the modal, resets the form, keeps the lists, refreshes, and says 'Branch updated successfully.' in edit mode or 'Branch created successfully.' in create mode; failure keeps the screen and shows the server message or 'Failed to save branch.' |
| BranchManagement.AdminPickerItems | src/screens/SuperAdmin/BranchManagementScreen.js:202-209 | 'None' first, then the offered admins in order, then an item labelled with the edited branch's `admin_name` and valued with its admin id exactly when that id is truthy and not offered, so it is always selectable |
| BranchManagement.FetchBranchesAndAdmins | src/screens/SuperAdmin/BranchManagementScreen.js:33-47 | loading and refreshing end either way; both lists are replaced only when both requests succeed, and otherwise both are kept and an error alert is raised |
| BranchManagement.Refresh | src/screens/SuperAdmin/BranchManagementScreen.js:126-129 | a pull-to-refresh ends with the refresh indicator and loading off, keeps the form and modal, and replaces both lists only when both requests succeed |
| BranchManagement.ResetFormIsRejected | src/screens/SuperAdmin/BranchManagementScreen.js:106-110 | submitting right after opening the create modal sends nothing |
| BranchManagement.EditedBranchSubmitsUpdate | src/screens/SuperAdmin/BranchManagementScreen.js:112-118 | resubmitting an edited branch unchanged sends PUT to its id with its own name, address and admin, and success closes the modal |
| BranchManagement.EditedBranchAdminSelectable | src/screens/SuperAdmin/BranchManagementScreen.js:206-209 | the admin pre-selected for an edited branch is always one of the picker items |
| BranchManagement.RefreshActsAsFetch | src/screens/SuperAdmin/BranchManagementScreen.js:126-129 | a pull-to-refresh leaves exactly the state the mount-time fetch leaves, for every outcome |
| BranchManagement.FetchDuringEditKeepsAdminSelectable | src/screens/SuperAdmin/BranchManagementScreen.js:202-209 | a fetch landing during an edit keeps the form open with the pre-selected admin, which stays among the picker items whatever admins are fetched |
| ComplaintList.InitialScreen | src/screens/NormalAdmin/ComplaintListScreen.js:18-24 | the status filter starts at 'all', a value of the picker's domain, with no date and an empty search |
| ComplaintList.QueryParams | src/screens/NormalAdmin/ComplaintListScreen.js:35-39 | status is null exactly for 'all' and otherwise the selection; date is null exactly when no date is chosen and otherwise the ISO text before its first 'T'; search is null exactly for a blank query and otherwise the untrimmed query |
| ComplaintList.StatusFilterParams | src/screens/NormalAdmin/ComplaintListScreen.js:92-95 | each of the four picker values is sent as itself except 'all', which is sent as null; the initial filters send no parameters |
| ComplaintList.SelectedDateSendsDay | src/screens/NormalAdmin/ComplaintListScreen.js:37 | a selected instant with ISO text `day + "T" + time` is sent as `day` |
| ComplaintList.FetchComplaints | src/screens/NormalAdmin/ComplaintListScreen.js:30-49 | loading and refreshing end either way; the list is replaced on success and kept on failure; the filters are untouched |
| ComplaintList.FetchKeepsQuery | src/screens/NormalAdmin/ComplaintListScreen.js:30-54 | a fetch or a refresh, successful or not, leaves the query parameters the next request sends unchanged |
| ComplaintList.OnItemPress | src/screens/NormalAdmin/ComplaintListScreen.js:59 | tapping an item navigates to 'ComplaintDetail' with that item's id |
| ComplaintList.StyleKey | src/screens/NormalAdmin/ComplaintListScreen.js:63 | the style key is the lower-cased status followed by "Status" |
| ComplaintList.AsciiLower | src/screens/NormalAdmin/ComplaintListScreen.js:63 | lower-casing keeps the length and lower-cases each character |
| ComplaintList.StyledExactlyForKnownStatuses | src/screens/NormalAdmin/ComplaintListScreen.js:63 | a badge gets one of the three defined styles exactly when its status lower-cases to open, pending or resolved |
| ComplaintList.StyleKeyIgnoresCase | src/screens/NormalAdmin/ComplaintListScreen.js:63 | every status and its lower-cased form share one style key |
| ComplaintDetail.InitialScreen | src/screens/NormalAdmin/ComplaintDetailScreen.js:16-20 | the screen starts loading for the route's id, with no complaint and an empty status and notes |
| ComplaintDetail.FetchComplaintDetails | src/screens/NormalAdmin/ComplaintDetailScreen.js:26-39 | loading ends either way; success stores the complaint, copies its status, and copies its notes or '' when they are absent or empty; failure changes nothing else and raises an error alert |
| ComplaintDetail.HandleChangeStatus | src/screens/NormalAdmin/ComplaintDetailScreen.js:41-58 | an empty status is rejected with no request; otherwise the status and notes are sent for the route's id; the screen navigates back exactly on success, after the alert 'Complaint status updated successfully!', and a failure shows the server message or 'Failed to update status.' |
| ComplaintDetail.Render | src/screens/NormalAdmin/ComplaintDetailScreen.js:60-110 | the spinner shows exactly while loading, "Complaint not found." exactly when there is no complaint, and otherwise the details of the stored complaint with the badge style of its status |
| ComplaintDetail.FailedLoadShowsNotFound | src/screens/NormalAdmin/ComplaintDetailScreen.js:33-38 | a failed first load renders "Complaint not found." |
| ComplaintDetail.ItemPressTargetsThatComplaint | src/screens/NormalAdmin/ComplaintListScreen.js:59 | tapping a list item opens the detail screen for that item's id, and a status change made there is sent for that id |
| ComplaintDetail.LoadThenUpdateSendsFetchedStatus | src/screens/NormalAdmin/ComplaintDetailScreen.js:30-51 | loading a complaint with a non-empty status and updating at once sends that status and its notes for the same id |
| ComplaintDetail.PickerChoicePassesGuard | src/screens/NormalAdmin/ComplaintDetailScreen.js:117-125 | any status chosen from the picker passes the empty-status guard |
| ComplaintDetail.FilterDomainMatchesSelectableStatuses | src/screens/NormalAdmin/ComplaintDetailScreen.js:122-124 | the selectable statuses are exactly open, pending and resolved; the list filter is 'all' followed by them; each has a badge style |
| Dashboard.InitialScreen | src/screens/SuperAdmin/DashboardScreen.js:8-16 | both filters start at 'all', the date at today, with no data and loading on |
| Dashboard.FilterParam | src/screens/SuperAdmin/DashboardScreen.js:25-26 | a filter is sent as null exactly for the 'all' sentinel and otherwise as the selected value |
| Dashboard.QueryParams | src/screens/SuperAdmin/DashboardScreen.js:22-27 | the date is the ISO day of the selected date; `branch_id` and `category` are null exactly for 'all' and otherwise the selection |
| Dashboard.WithSentinel | src/screens/SuperAdmin/DashboardScreen.js:44-45 | a filter list is the 'all' entry followed by the fetched entries in order |
| Dashboard.FetchFiltersData | src/screens/SuperAdmin/DashboardScreen.js:39-49 | both option lists gain the sentinel and the fetched entries only when both requests succeed, and nothing changes otherwise; the data, the loading flags, the date and both filters are never touched |
| Dashboard.FetchDashboardData | src/screens/SuperAdmin/DashboardScreen.js:18-37 | loading and refreshing end either way; the data is replaced on success and the previous data kept on failure; the date, both filters and both option lists are unchanged, so the next request sends the same parameters |
| Dashboard.Render | src/screens/SuperAdmin/DashboardScreen.js:115-141 | the spinner shows exactly while loading, the cards exactly when data is present, and otherwise the no-data text |
| Dashboard.FilterOptionsMapToParams | src/screens/SuperAdmin/DashboardScreen.js:25-45 | choosing the first entry of either loaded list clears that filter, and choosing a fetched branch sends that branch's id |
| Dashboard.FailedRefreshKeepsCards | src/screens/SuperAdmin/DashboardScreen.js:29-36 | a failed refresh keeps showing the previous cards |
| Dashboard.InitialQueryUnfiltered | src/screens/SuperAdmin/DashboardScreen.js:11-27 | the first request carries today's date and no branch or category filter |

## Left out

- HTTP requests. Each one is an `Outcome` input. Request URLs are reduced to the request kind and the target id.
- Overlapping asynchronous handlers and batched `setState` updates. Each handler is one atomic step.
- Rendering, style sheets, modal and picker visuals, and `console` logging. Alert dialogs are kept as values.
- The delete and reset-password handlers, which have no local logic. Each sends one confirmed request and raises an alert. Only the delete handlers refetch the lists, and only on success (AdminManagementScreen.js:109, BranchManagementScreen.js:95). `handleResetPassword` (AdminManagementScreen.js:120-140) never refetches.
- The branch screen's Cancel button and its `onRequestClose` handler (BranchManagementScreen.js:173-176 and 213). Both mirror the admin screen's `AdminManagement.CancelModal` and `AdminManagement.RequestCloseModal`. The branch form has no hidden field, so nothing can leak between modes.
- `signUp`. It is an empty function.
- The navigation configuration files and the drawer. They are declarative wiring with no logic. The drawer's logout button calls `signOut`, which is modelled.
- Common.IsoDay: the conversion of a date to its `toISOString()` text is not modelled. A date is represented by that text, and only `split('T')[0]` is modelled.
- ComplaintList.AsciiLower: lower-cases ASCII letters only, not the full Unicode mapping of `toLowerCase`.
- LoginScreen.HandleLogin: assumes the response body is an object with a string or absent token and a string or absent `user.role`. A null body, a non-string token, and a truthy non-string role (a number, say, which `signIn` would hand to `AsyncStorage.setItem` at App.js:19) are not modelled.
- Non-string or non-numeric JSON ids, and `is_active` values that are not booleans, are not modelled.
- Null or non-string `name`, `email`, `address` and `status` fields are not modelled; every such field is a string. In the code:
  - `adminName.trim()` (AdminManagementScreen.js:55) and `branchAddress.trim()` (BranchManagementScreen.js:50) run before the `try`. A record with a null name or address, opened for editing and submitted, makes the handler reject with no alert.
  - `status.toLowerCase()` (ComplaintListScreen.js:63, ComplaintDetailScreen.js:108) throws on a null status, so such a complaint crashes the render.
- Dashboard.Render: assumes `TouchableOpacity` and `ActivityIndicator` are imported. DashboardScreen.js imports neither (line 2) yet renders them (lines 73 and 116), so as written every render throws a `ReferenceError` and no fetch runs.
- BranchManagement.AdminPickerItems: assumes `Picker` is imported. BranchManagementScreen.js renders it (line 197) without an import, so as written every render of the screen throws a `ReferenceError` and no fetch runs.

## Findings

Nothing here was executed; the row comes from the model. `AdminManagement.EditedAdminSubmitsUpdate` states the exact PUT body for the corrected prefill.

| source | as written | input that shows it | evidently intended | confidence | as-written member | corrected member |
|---|---|---|---|---|---|---|
| src/screens/SuperAdmin/AdminManagementScreen.js:148-156 | `openEditModal` (modelled by `AdminManagement.OpenEditModal`) leaves `adminPassword` as it was; Cancel (line 295) only hides the modal; the edit form hides the password input (line 245), yet the request body sends `adminPassword` whenever it is non-empty (line 72) | open the create modal, type a password, press Cancel, then edit any valid admin and press Update: the PUT carries the typed password | an edit request never carries a password; line 72's comment limits it to new accounts or resets | medium, not executed | AdminManagement.StalePasswordReachesUpdate | AdminManagement.OpenEditModalClearingPassword |

=== FILE: admin_management.dfy ===
/** The super-admin's admin-account screen: the list fetch, the create/edit
    modal form with its validation and request payload, the two mutually
    exclusive permission switches, and the branch picker. Requests are
    inputs; a confirmed delete or password reset is not modelled. */
module AdminManagement {
  import opened Common

  datatype Permissions = Permissions(viewOnly: bool, fullAccess: bool)

  const NoPermissions: Permissions := Permissions(false, false)

  /** An admin account as listed by the backend. */
  datatype Admin = Admin(
    id: int,
    name: string,
    email: string,
    permissions: Option<Permissions>,
    isActive: bool,
    branchId: Option<int>,
    branchName: Option<string>)

  /** One entry of the branch list behind the picker (`id` null for the
      "No Branch Assigned" entry). */
  datatype BranchOption = BranchOption(id: Option<int>, name: string)

  /** The modal form; `current` is the admin being edited (null: create). */
  datatype AdminForm = AdminForm(
    current: Option<Admin>,
    name: string,
    email: string,
    password: string,
    permissions: Permissions,
    isActive: bool,
    branch: Option<int>)

  datatype AdminScreen = AdminScreen(
    admins: seq<Admin>,
    branches: seq<BranchOption>,
    loading: bool,
    refreshing: bool,
    modalVisible: bool,
    form: AdminForm)

  /** The field values `resetForm` installs. */
  predicate HasDefaultFields(f: AdminForm) {
    && f.name == "" && f.email == "" && f.password == ""
    && f.permissions == NoPermissions
    && f.isActive
    && f.branch.None?
  }

  /** `resetForm`: clears every field; the admin being edited is kept. */
  function ResetForm(f: AdminForm): (r: AdminForm)
    ensures HasDefaultFields(r)
    ensures r.current == f.current
  {
    f.(name := "", email := "", password := "", permissions := NoPermissions, isActive := true, branch := None)
  }

  function InitialScreen(): (r: AdminScreen)
    ensures r.loading && !r.refreshing && !r.modalVisible
    ensures r.admins == [] && r.branches == []
    ensures r.form.current.None? && HasDefaultFields(r.form)
  {
    AdminScreen([], [], true, false, false, AdminForm(None, "", "", "", NoPermissions, true, None))
  }

  /** `openCreateModal`: create mode with a blank form. */
  function OpenCreateModal(sc: AdminScreen): (r: AdminScreen)
    ensures r.modalVisible
    ensures r.form.current.None? && HasDefaultFields(r.form)
    ensures r.admins == sc.admins && r.branches == sc.branches
    ensures r.loading == sc.loading && r.refreshing == sc.refreshing
  {
    sc.(modalVisible := true, form := ResetForm(sc.form.(current := None)))
  }

  /** The fields `openEditModal` copies from the admin record. */
  predicate PrefilledFrom(f: AdminForm, admin: Admin) {
    && f.current == Some(admin)
    && f.name == admin.name && f.email == admin.email && f.isActive == admin.isActive
    && f.permissions == admin.permissions.GetOr(NoPermissions)
    && f.branch == IdOrNull(admin.branchId)
  }

  /** `openEditModal(admin)`: edit mode prefilled from the admin; the password
      field, hidden in edit mode, keeps whatever it held. */
  function OpenEditModal(sc: AdminScreen, admin: Admin): (r: AdminScreen)
    ensures r.modalVisible
    ensures r.form.current == Some(admin)
    ensures r.form.name == admin.name && r.form.email == admin.email && r.form.isActive == admin.isActive
    ensures admin.permissions.Some? ==> r.form.permissions == admin.permissions.value
    ensures admin.permissions.None? ==> r.form.permissions == NoPermissions
    ensures r.form.branch.Some? <==> TruthyId(admin.branchId)
    ensures r.form.branch.Some? ==> r.form.branch == admin.branchId
    ensures r.form.password == sc.form.password
    ensures r.admins == sc.admins && r.branches == sc.branches
    ensures r.loading == sc.loading && r.refreshing == sc.refreshing
  {
    sc.(modalVisible := true,
        form := sc.form.(current := Some(admin), name := admin.name, email := admin.email,
                         permissions := admin.permissions.GetOr(NoPermissions),
                         isActive := admin.isActive, branch := IdOrNull(admin.branchId)))
  }

  /** `openEditModal` with the password field cleared as well: the edit form
      hides the password input, so an edit request then never carries one. */
  function OpenEditModalClearingPassword(sc: AdminScreen, admin: Admin): (r: AdminScreen)
    ensures r.modalVisible && PrefilledFrom(r.form, admin)
    ensures r.form.password == ""
    ensures BuildRequest(r.form).UpdateAdmin? && BuildRequest(r.form).body.password.None?
    ensures r.admins == sc.admins && r.branches == sc.branches
    ensures r.loading == sc.loading && r.refreshing == sc.refreshing
  {
    var edit := OpenEditModal(sc, admin);
    edit.(form := edit.form.(password := ""))
  }

  /** The modal's Cancel button: hides the modal and leaves every field as it
      is. */
  function CancelModal(sc: AdminScreen): (r: AdminScreen)
    ensures !r.modalVisible
    ensures r.form == sc.form
    ensures r.admins == sc.admins && r.branches == sc.branches
    ensures r.loading == sc.loading && r.refreshing == sc.refreshing
  {
    sc.(modalVisible := false)
  }

  /** The modal's `onRequestClose` (the hardware back button): toggles the
      modal's visibility and resets the form. */
  function RequestCloseModal(sc: AdminScreen): (r: AdminScreen)
    ensures r.modalVisible == !sc.modalVisible
    ensures HasDefaultFields(r.form) && r.form.current == sc.form.current
    ensures r.admins == sc.admins && r.branches == sc.branches
    ensures r.loading == sc.loading && r.refreshing == sc.refreshing
  {
    sc.(modalVisible := !sc.modalVisible, form := ResetForm(sc.form))
  }

  /** The "View Only" switch: turning it on turns "Full Access" off. */
  function ToggleViewOnly(p: Permissions, on: bool): (r: Permissions)
    ensures r.viewOnly == on
    ensures !(r.viewOnly && r.fullAccess)
    ensures !on ==> r.fullAccess == p.fullAccess
  {
    Permissions(on, if on then false else p.fullAccess)
  }

  /** The "Full Access" switch: turning it on turns "View Only" off. */
  function ToggleFullAccess(p: Permissions, on: bool): (r: Permissions)
    ensures r.fullAccess == on
    ensures !(r.viewOnly && r.fullAccess)
    ensures !on ==> r.viewOnly == p.viewOnly
  {
    Permissions(if on then false else p.viewOnly, on)
  }

  /** The validation failures, in the order they are checked. */
  datatype ValidationError = NameAndEmailRequired | PasswordRequired | PermissionRequired

  function ValidationMessage(e: ValidationError): string {
    match e
    case NameAndEmailRequired => "Admin Name and Email are required."
    case PasswordRequired => "Password is required for new admin accounts."
    case PermissionRequired => "Please select at least one permission."
  }

  /** The guard of `handleCreateOrUpdateAdmin`: the first failing check, or
      none. */
  function Validate(f: AdminForm): (r: Option<ValidationError>)
    ensures r == Some(NameAndEmailRequired) <==> IsBlank(f.name) || IsBlank(f.email)
    ensures r == Some(PasswordRequired) <==>
              !IsBlank(f.name) && !IsBlank(f.email) && f.current.None? && IsBlank(f.password)
    ensures r == Some(PermissionRequired) <==>
              && !IsBlank(f.name) && !IsBlank(f.email) && (f.current.Some? || !IsBlank(f.password))
              && !f.permissions.viewOnly && !f.permissions.fullAccess
    ensures r.None? <==>
              && !IsBlank(f.name) && !IsBlank(f.email) && (f.current.Some? || !IsBlank(f.password))
              && (f.permissions.viewOnly || f.permissions.fullAccess)
  {
    TrimEmptyIffBlank(f.name);
    TrimEmptyIffBlank(f.email);
    TrimEmptyIffBlank(f.password);
    if Trim(f.name) == "" || Trim(f.email) == "" then Some(NameAndEmailRequired)
    else if f.current.None? && Trim(f.password) == "" then Some(PasswordRequired)
    else if !f.permissions.viewOnly && !f.permissions.fullAccess then Some(PermissionRequired)
    else None
  }

  /** The request body; a null `password` is left out of the JSON. */
  datatype AdminPayload = AdminPayload(
    name: string,
    email: string,
    password: Option<string>,
    permissions: Permissions,
    isActive: bool,
    branchId: Option<int>)

  datatype AdminRequest =
    | CreateAdmin(body: AdminPayload)            // POST .../super_admin/admins
    | UpdateAdmin(id: int, body: AdminPayload)   // PUT .../super_admin/admins/{id}

  /** The request `handleCreateOrUpdateAdmin` issues for a valid form. */
  function BuildRequest(f: AdminForm): (r: AdminRequest)
    ensures r.UpdateAdmin? <==> f.current.Some?
    ensures r.UpdateAdmin? ==> r.id == f.current.value.id
    ensures r.body.password.None? <==> f.password == ""
    ensures r.body.password.Some? ==> r.body.password.value == f.password
    ensures r.body.name == f.name && r.body.email == f.email
    ensures r.body.permissions == f.permissions && r.body.isActive == f.isActive
    ensures r.body.branchId == f.branch
  {
    var body := AdminPayload(f.name, f.email, if f.password == "" then None else Some(f.password),
                             f.permissions, f.isActive, f.branch);
    match f.current
    case Some(a) => UpdateAdmin(a.id, body)
    case None => CreateAdmin(body)
  }

  /** The screen after a submit, the request sent (if any), the alert raised,
      and whether a list refresh was started. */
  datatype SubmitResult = SubmitResult(screen: AdminScreen, request: Option<AdminRequest>, alert: Alert, refetch: bool)

  /** `handleCreateOrUpdateAdmin`, given the outcome of the request it would
      send: an invalid form sends nothing; a successful request closes the
      modal and resets the form; a failed one keeps everything. The refetch
      started on success is reported by `refetch`; its own `setLoading(true)`
      belongs to that following `FetchAdminsAndBranches` step. */
  function Submit(sc: AdminScreen, outcome: Outcome<()>): (r: SubmitResult)
    ensures r.request.Some? <==> Validate(sc.form).None?
    ensures r.request.Some? ==> r.request.value == BuildRequest(sc.form)
    ensures r.request.None? ==>
              r.screen == sc && r.alert == Alert("Validation Error", ValidationMessage(Validate(sc.form).value))
    ensures r.refetch <==> r.request.Some? && outcome.Ok?
    ensures r.refetch ==>
              && !r.screen.modalVisible
              && HasDefaultFields(r.screen.form)
              && r.screen.form.current == sc.form.current
              && r.screen.admins == sc.admins && r.screen.branches == sc.branches
              && r.screen.loading == sc.loading && r.screen.refreshing == sc.refreshing
    ensures r.refetch && sc.form.current.Some? ==> r.alert == Alert("Success", "Admin account updated successfully.")
    ensures r.refetch && sc.form.current.None? ==> r.alert == Alert("Success", "Admin account created successfully.")
    ensures r.request.Some? && outcome.Err? ==>
              r.screen == sc && r.alert == Alert("Error", MessageOr(outcome.serverMessage, "Failed to save admin."))
  {
    match Validate(sc.form)
    case Some(e) => SubmitResult(sc, None, Alert("Validation Error", ValidationMessage(e)), false)
    case None =>
      var request := BuildRequest(sc.form);
      match outcome
      case Ok(_) =>
        var message := if request.UpdateAdmin? then "Admin account updated successfully."
                       else "Admin account created successfully.";
        SubmitResult(sc.(modalVisible := false, form := ResetForm(sc.form)), Some(request),
                     Alert("Success", message), true)
      case Err(m) =>
        SubmitResult(sc, Some(request), Alert("Error", MessageOr(m, "Failed to save admin.")), false)
  }

  /** The branch list behind the picker: the unassigned entry, then the
      fetched branches in order. */
  function BranchOptions(fetched: seq<BranchOption>): (r: seq<BranchOption>)
    ensures |r| == |fetched| + 1
    ensures r[0] == BranchOption(None, "No Branch Assigned")
    ensures r[1..] == fetched
  {
    [BranchOption(None, "No Branch Assigned")] + fetched
  }

  /** The picker items: one per branch option, then the edited admin's own
      branch (labelled with its `branch_name`) when it has a truthy id that no
      option carries. */
  function BranchPickerItems(options: seq<BranchOption>, current: Option<Admin>): (r: seq<PickerItem>)
    ensures |options| <= |r| <= |options| + 1
    ensures forall i :: 0 <= i < |options| ==> r[i] == PickerItem(Some(options[i].name), options[i].id)
    ensures current.Some? && TruthyId(current.value.branchId) ==> Offers(r, current.value.branchId)
    ensures |r| > |options| <==>
              current.Some? && TruthyId(current.value.branchId) && !Offers(r[..|options|], current.value.branchId)
    ensures |r| > |options| ==> r[|options|] == PickerItem(current.value.branchName, current.value.branchId)
  {
    var items := seq(|options|, i requires 0 <= i < |options| => PickerItem(Some(options[i].name), options[i].id));
    match current
    case Some(a) =>
      if TruthyId(a.branchId) && !Offers(items, a.branchId) then
        var r := items + [PickerItem(a.branchName, a.branchId)];
        assert r[..|items|] == items;
        assert r[|items|].value == a.branchId;
        r
      else
        assert TruthyId(a.branchId) ==> items[OfferIndex(items, a.branchId)].value == a.branchId;
        items
    case None => items
  }

  /** The permission summary shown for a listed admin: full access wins over
      view only. */
  function PermissionLabel(p: Option<Permissions>): (r: string)
    ensures r == "Full Access" <==> p.Some? && p.value.fullAccess
    ensures r == "View Only" <==> p.Some? && !p.value.fullAccess && p.value.viewOnly
    ensures r == "None" <==> p.None? || (!p.value.fullAccess && !p.value.viewOnly)
  {
    if p.Some? && p.value.fullAccess then "Full Access"
    else if p.Some? && p.value.viewOnly then "View Only"
    else "None"
  }

  /** `fetchAdminsAndBranches`, given the two request outcomes (the branch
      request is only sent after the admin request succeeded): both lists are
      replaced only when both succeed; loading and refreshing end either way. */
  function FetchAdminsAndBranches(sc: AdminScreen, admins: Outcome<seq<Admin>>, branches: Outcome<seq<BranchOption>>)
    : (r: (AdminScreen, Option<Alert>))
    ensures !r.0.loading && !r.0.refreshing
    ensures r.0.modalVisible == sc.modalVisible && r.0.form == sc.form
    ensures admins.Ok? && branches.Ok? ==>
              r.0.admins == admins.data && r.0.branches == BranchOptions(branches.data) && r.1.None?
    ensures !(admins.Ok? && branches.Ok?) ==>
              r.0.admins == sc.admins && r.0.branches == sc.branches
              && r.1 == Some(Alert("Error", "Failed to load admins or branches."))
  {
    var done := sc.(loading := false, refreshing := false);
    if admins.Ok? && branches.Ok? then
      (done.(admins := admins.data, branches := BranchOptions(branches.data)), None)
    else
      (done, Some(Alert("Error", "Failed to load admins or branches.")))
  }

  /** A freshly reset form can never be submitted. */
  lemma ResetFormIsRejected(f: AdminForm)
    ensures Validate(ResetForm(f)) == Some(NameAndEmailRequired)
  {
  }

  /** Opening the create modal and submitting right away sends nothing and
      keeps the modal open. */
  lemma CreateModalSubmitSendsNothing(sc: AdminScreen, outcome: Outcome<()>)
    ensures var r := Submit(OpenCreateModal(sc), outcome);
            r.request.None? && r.screen.modalVisible
  {
  }

  /** Create mode demands a non-blank password; edit mode never does. */
  lemma PasswordOnlyRequiredOnCreate(f: AdminForm)
    requires !IsBlank(f.name) && !IsBlank(f.email)
    ensures Validate(f) == Some(PasswordRequired) <==> f.current.None? && IsBlank(f.password)
    ensures f.current.Some? ==> Validate(f) != Some(PasswordRequired)
  {
  }

  /** Editing an admin whose record has a name, an email and a permission
      yields a form that passes validation with any password, and submits a
      PUT to that admin's id; with the password cleared on opening, the PUT
      carries no password. */
  lemma EditedAdminSubmitsUpdate(sc: AdminScreen, admin: Admin)
    requires !IsBlank(admin.name) && !IsBlank(admin.email)
    requires admin.permissions.Some? && (admin.permissions.value.viewOnly || admin.permissions.value.fullAccess)
    ensures var f := OpenEditModal(sc, admin).form;
            Validate(f).None? && BuildRequest(f).UpdateAdmin? && BuildRequest(f).id == admin.id
    ensures var f := OpenEditModalClearingPassword(sc, admin).form;
            Validate(f).None? && BuildRequest(f) == UpdateAdmin(admin.id, AdminPayload(admin.name, admin.email, None,
                                                                  admin.permissions.value, admin.isActive, IdOrNull(admin.branchId)))
  {
  }

  /** As written, a password typed into the create form survives the Cancel
      button, stays hidden in the edit form, and is sent with the next edit's
      PUT for a different admin. Closing with the back button instead resets
      it. */
  lemma StalePasswordReachesUpdate(sc: AdminScreen, typed: string, admin: Admin)
    requires typed != ""
    requires !IsBlank(admin.name) && !IsBlank(admin.email)
    requires admin.permissions.Some? && (admin.permissions.value.viewOnly || admin.permissions.value.fullAccess)
    ensures var created := OpenCreateModal(sc);
            var filled := created.(form := created.form.(password := typed));
            && Submit(OpenEditModal(CancelModal(filled), admin), Ok(())).request.value.body.password == Some(typed)
            && Submit(OpenEditModal(RequestCloseModal(filled), admin), Ok(())).request.value.body.password.None?
  {
  }

  /** The label shown for a listed admin agrees with the switches: the switch
      just turned on names the label, and the label is 'None' exactly when
      validation would report the missing permission. */
  lemma PermissionLabelMatchesSwitches(p: Permissions, f: AdminForm)
    requires !IsBlank(f.name) && !IsBlank(f.email) && (f.current.Some? || !IsBlank(f.password))
    ensures PermissionLabel(Some(ToggleFullAccess(p, true))) == "Full Access"
    ensures PermissionLabel(Some(ToggleViewOnly(p, true))) == "View Only"
    ensures PermissionLabel(Some(f.permissions)) == "None" <==> Validate(f) == Some(PermissionRequired)
  {
  }

  /** After a successful fetch the picker's first item is the null "No Branch
      Assigned" entry, so the reset form's branch is selectable, and every
      fetched branch is offered after it. */
  lemma FetchedPickerOffersResetBranch(sc: AdminScreen, admins: seq<Admin>, branches: seq<BranchOption>, current: Option<Admin>)
    ensures var loaded := FetchAdminsAndBranches(sc, Ok(admins), Ok(branches)).0;
            var items := BranchPickerItems(loaded.branches, current);
            && items[0] == PickerItem(Some("No Branch Assigned"), None)
            && Offers(items, ResetForm(sc.form).branch)
            && forall i :: 0 <= i < |branches| ==> items[i + 1].value == branches[i].id
  {
    var loaded := FetchAdminsAndBranches(sc, Ok(admins), Ok(branches)).0;
    var items := BranchPickerItems(loaded.branches, current);
    assert items[0].value == ResetForm(sc.form).branch;
    forall i | 0 <= i < |branches|
      ensures items[i + 1].value == branches[i].id
    {
      assert loaded.branches[i + 1] == loaded.branches[1..][i];
    }
  }

  /** Whatever the permissions held before, any switch change leaves at most
      one of them on, and switching one on and then off clears both. */
  lemma SwitchesNeverBothOn(p: Permissions, viewOn: bool, fullOn: bool)
    ensures !(ToggleFullAccess(ToggleViewOnly(p, viewOn), fullOn).viewOnly
              && ToggleFullAccess(ToggleViewOnly(p, viewOn), fullOn).fullAccess)
    ensures ToggleViewOnly(ToggleViewOnly(p, true), false) == Permissions(false, false)
  {
  }
}

=== FILE: app_session.dfy ===
/** The session state machine of the root component (App.js): the state
    `(isLoading, userToken, userRole)`, its three transitions (the boot-time
    credential read, `signIn`, `signOut`) and the role router that picks the
    screen tree to mount. Each transition runs to completion atomically; a
    storage call that throws ends the transition at that statement. */
module AppSession {
  import opened Common
  import opened CredentialStore

  /** The component state of App. */
  datatype Session = Session(isLoading: bool, token: Option<string>, role: Option<string>)

  /** The role tag that selects the super-admin tree. */
  const SuperAdminRole: string := "super_admin"

  /** The state before the boot-time read has finished. */
  function Initial(): (s: Session)
    ensures s.isLoading
    ensures s.token.None? && s.role.None?
  {
    Session(true, None, None)
  }

  /** Which of the two `getItem` calls of the boot-time read throw. */
  datatype ReadFaults = ReadFaults(tokenFails: bool, roleFails: bool)

  /** Which of the two `setItem` (or `removeItem`) calls throw. */
  datatype WriteFaults = WriteFaults(tokenFails: bool, roleFails: bool)

  const NoReadFaults: ReadFaults := ReadFaults(false, false)
  const NoWriteFaults: WriteFaults := WriteFaults(false, false)

  /** The state after `signIn` or `signOut`, the store after it, and whether
      the call resolved (false: it rejected part-way). */
  datatype Effect = Effect(session: Session, store: Store, completed: bool)

  /** `checkUserToken`: reads the token, then the role; a throw skips the rest
      of the `try`, and the `finally` block stores whatever was read and ends
      loading. */
  function Bootstrap(store: Store, f: ReadFaults): (r: Session)
    ensures !r.isLoading
    ensures !f.tokenFails && !f.roleFails ==>
              r.token == Lookup(store, UserToken) && r.role == Lookup(store, UserRole)
    ensures f.tokenFails ==> r.token.None? && r.role.None?
    ensures !f.tokenFails && f.roleFails ==>
              r.token == Lookup(store, UserToken) && r.role.None?
  {
    var read :=
      match GetItem(store, UserToken, f.tokenFails)
      case Threw => (None, None)
      case Done(token) =>
        match GetItem(store, UserRole, f.roleFails)
        case Threw => (token, None)
        case Done(role) => (token, role);
    Session(false, read.0, read.1)
  }

  /** `signIn(token, role)`: enters loading, writes the token, then the role,
      and only then updates the in-memory pair and leaves loading. */
  function SignIn(s: Session, store: Store, token: string, role: string, f: WriteFaults): (r: Effect)
    ensures r.completed <==> !f.tokenFails && !f.roleFails
    ensures r.completed ==> r.session == Session(false, Some(token), Some(role))
    ensures r.completed ==> Lookup(r.store, UserToken) == Some(token) && Lookup(r.store, UserRole) == Some(role)
    ensures !r.completed ==> r.session == s.(isLoading := true)
    ensures f.tokenFails ==> r.store == store
    ensures !f.tokenFails && f.roleFails ==>
              Lookup(r.store, UserToken) == Some(token) && Lookup(r.store, UserRole) == Lookup(store, UserRole)
  {
    var loading := s.(isLoading := true);
    match SetItem(store, UserToken, token, f.tokenFails)
    case Threw => Effect(loading, store, false)
    case Done(afterToken) =>
      match SetItem(afterToken, UserRole, role, f.roleFails)
      case Threw => Effect(loading, afterToken, false)
      case Done(afterRole) => Effect(Session(false, Some(token), Some(role)), afterRole, true)
  }

  /** `signOut()`: enters loading, removes the token, then the role, and only
      then clears the in-memory pair and leaves loading. */
  function SignOut(s: Session, store: Store, f: WriteFaults): (r: Effect)
    ensures r.completed <==> !f.tokenFails && !f.roleFails
    ensures r.completed ==> r.session == Session(false, None, None)
    ensures r.completed ==> Lookup(r.store, UserToken).None? && Lookup(r.store, UserRole).None?
    ensures !r.completed ==> r.session == s.(isLoading := true)
    ensures f.tokenFails ==> r.store == store
    ensures !f.tokenFails && f.roleFails ==>
              Lookup(r.store, UserToken).None? && Lookup(r.store, UserRole) == Lookup(store, UserRole)
  {
    var loading := s.(isLoading := true);
    match RemoveItem(store, UserToken, f.tokenFails)
    case Threw => Effect(loading, store, false)
    case Done(afterToken) =>
      match RemoveItem(afterToken, UserRole, f.roleFails)
      case Threw => Effect(loading, afterToken, false)
      case Done(afterRole) => Effect(Session(false, None, None), afterRole, true)
  }

  /** What the root component renders. */
  datatype View =
    | LoadingView       // the activity indicator
    | AuthTree          // login and forgot-password stack
    | SuperAdminTree
    | NormalAdminTree
    | PlaceholderView   // the bare-text `<View>` element the component currently returns

  /** The intended router: the loading gate, then the navigation ternary
      (null token, then the super-admin tag, then everything else). */
  function Route(s: Session): (v: View)
    ensures v == LoadingView <==> s.isLoading
    ensures v == AuthTree <==> !s.isLoading && s.token.None?
    ensures v == SuperAdminTree <==> !s.isLoading && s.token.Some? && s.role == Some(SuperAdminRole)
    ensures v == NormalAdminTree <==> !s.isLoading && s.token.Some? && s.role != Some(SuperAdminRole)
    ensures v != PlaceholderView
  {
    if s.isLoading then LoadingView
    else if s.token == None then AuthTree
    else if s.role == Some(SuperAdminRole) then SuperAdminTree
    else NormalAdminTree
  }

  /** The element the component returns as it stands: the loading gate, then
      a `<View>` holding bare text in place of the commented-out router. */
  function LiveRender(s: Session): (v: View)
    ensures v == LoadingView <==> s.isLoading
    ensures v in {LoadingView, PlaceholderView}
  {
    if s.isLoading then LoadingView else PlaceholderView
  }

  /** As the component stands, it agrees with the intended router only while
      loading: once loading ends it never returns a navigation tree. */
  lemma LiveRenderMatchesRouteOnlyWhileLoading(s: Session)
    ensures LiveRender(s) == Route(s) <==> s.isLoading
    ensures !s.isLoading ==> Route(s) in {AuthTree, SuperAdminTree, NormalAdminTree} && LiveRender(s) == PlaceholderView
  {
  }

  /** The first frame is the loading view, whatever is stored. */
  lemma InitialShowsLoading()
    ensures Route(Initial()) == LoadingView && LiveRender(Initial()) == LoadingView
  {
  }

  /** Boot always leaves the loading view, so the router reaches a steady tree. */
  lemma BootstrapReachesSteadyTree(store: Store, f: ReadFaults)
    ensures Route(Bootstrap(store, f)) in {AuthTree, SuperAdminTree, NormalAdminTree}
  {
  }

  /** Sign-in followed by a restart: the boot-time read restores exactly the
      session that sign-in established. */
  lemma RestartAfterSignInRestores(s: Session, store: Store, token: string, role: string, f: WriteFaults)
    requires SignIn(s, store, token, role, f).completed
    ensures Bootstrap(SignIn(s, store, token, role, f).store, NoReadFaults) == SignIn(s, store, token, role, f).session
  {
  }

  /** Sign-out followed by a restart lands on the login tree. */
  lemma RestartAfterSignOutShowsLogin(s: Session, store: Store, f: WriteFaults)
    requires SignOut(s, store, f).completed
    ensures Route(Bootstrap(SignOut(s, store, f).store, NoReadFaults)) == AuthTree
  {
  }

  /** A completed sign-in mounts the super-admin tree exactly for the
      super-admin tag, and the normal-admin tree for any other tag. */
  lemma SignInRoutesByRole(s: Session, store: Store, token: string, role: string)
    ensures var e := SignIn(s, store, token, role, NoWriteFaults);
            e.completed &&
            (Route(e.session) == SuperAdminTree <==> role == SuperAdminRole) &&
            (Route(e.session) == NormalAdminTree <==> role != SuperAdminRole)
  {
  }

  /** Signing in twice with the same arguments yields the same session and
      store as signing in once. */
  lemma SignInIdempotent(s: Session, store: Store, token: string, role: string)
    ensures var e := SignIn(s, store, token, role, NoWriteFaults);
            SignIn(e.session, e.store, token, role, NoWriteFaults) == e
  {
  }

  /** A completed sign-out mounts the login tree, whatever the prior session. */
  lemma SignOutShowsLogin(s: Session, store: Store)
    ensures var e := SignOut(s, store, NoWriteFaults);
            e.completed && Route(e.session) == AuthTree
  {
  }

  /** A sign-in or sign-out whose storage call throws never leaves loading:
      the activity indicator stays up. */
  lemma FailedTransitionStuckLoading(s: Session, store: Store, token: string, role: string, f: WriteFaults)
    requires f.tokenFails || f.roleFails
    ensures Route(SignIn(s, store, token, role, f).session) == LoadingView
    ensures Route(SignOut(s, store, f).session) == LoadingView
  {
  }

  /** The boot-time read does not keep token and role together: a stored token
      without a role, or a role read that throws, yields a token with no role,
      which the router sends to the normal-admin tree. */
  lemma BootstrapCanHalfPopulate()
    ensures var r := Bootstrap(map[UserToken := "abc"], NoReadFaults);
            r.token == Some("abc") && r.role.None? && Route(r) == NormalAdminTree
    ensures var r := Bootstrap(map[UserToken := "abc", UserRole := SuperAdminRole], ReadFaults(false, true));
            r.token == Some("abc") && r.role.None? && Route(r) == NormalAdminTree
  {
  }

  /** A sign-in whose role write throws leaves the new token beside the
      previously stored role; after a restart that old role decides the tree. */
  lemma TornSignInKeepsStaleRole()
    ensures var e := SignIn(Session(false, Some("old"), Some(SuperAdminRole)),
                            map[UserToken := "old", UserRole := SuperAdminRole],
                            "new", "normal_admin", WriteFaults(false, true));
            var b := Bootstrap(e.store, NoReadFaults);
            !e.completed && b.token == Some("new") && Route(b) == SuperAdminTree
  {
  }
}

=== FILE: branch_management.dfy ===
/** The super-admin's branch screen: the list fetch, the create/edit modal
    form with its validation and request payload, and the admin picker.
    Requests are inputs; a confirmed delete is not modelled. */
module BranchManagement {
  import opened Common

  /** A branch as listed by the backend. */
  datatype Branch = Branch(id: int, name: string, address: string, adminId: Option<int>, adminName: Option<string>)

  /** An admin offered by the picker (the unassigned admins). */
  datatype AdminChoice = AdminChoice(id: int, name: string)

  /** The modal form; `current` is the branch being edited (null: create). */
  datatype BranchForm = BranchForm(current: Option<Branch>, name: string, address: string, selectedAdmin: Option<int>)

  datatype BranchScreen = BranchScreen(
    branches: seq<Branch>,
    admins: seq<AdminChoice>,
    loading: bool,
    refreshing: bool,
    modalVisible: bool,
    form: BranchForm)

  /** The field values `resetForm` installs. */
  predicate HasDefaultFields(f: BranchForm) {
    f.name == "" && f.address == "" && f.selectedAdmin.None?
  }

  /** `resetForm`: clears the fields; the branch being edited is kept. */
  function ResetForm(f: BranchForm): (r: BranchForm)
    ensures HasDefaultFields(r)
    ensures r.current == f.current
  {
    f.(name := "", address := "", selectedAdmin := None)
  }

  function InitialScreen(): (r: BranchScreen)
    ensures r.loading && !r.refreshing && !r.modalVisible
    ensures r.branches == [] && r.admins == []
    ensures r.form.current.None? && HasDefaultFields(r.form)
  {
    BranchScreen([], [], true, false, false, BranchForm(None, "", "", None))
  }

  /** `openCreateModal`: create mode with a blank form. */
  function OpenCreateModal(sc: BranchScreen): (r: BranchScreen)
    ensures r.modalVisible
    ensures r.form.current.None? && HasDefaultFields(r.form)
    ensures r.branches == sc.branches && r.admins == sc.admins
    ensures r.loading == sc.loading && r.refreshing == sc.refreshing
  {
    sc.(modalVisible := true, form := ResetForm(sc.form.(current := None)))
  }

  /** `openEditModal(branch)`: edit mode prefilled from the branch, its admin
      pre-selected (a falsy admin id selects none). */
  function OpenEditModal(sc: BranchScreen, branch: Branch): (r: BranchScreen)
    ensures r.modalVisible
    ensures r.form.current == Some(branch)
    ensures r.form.name == branch.name && r.form.address == branch.address
    ensures r.form.selectedAdmin.Some? <==> TruthyId(branch.adminId)
    ensures r.form.selectedAdmin.Some? ==> r.form.selectedAdmin == branch.adminId
    ensures r.branches == sc.branches && r.admins == sc.admins
    ensures r.loading == sc.loading && r.refreshing == sc.refreshing
  {
    sc.(modalVisible := true,
        form := BranchForm(Some(branch), branch.name, branch.address, IdOrNull(branch.adminId)))
  }

  const RequiredFieldsMessage: string := "Branch Name and Address are required."

  /** The guard of `handleCreateOrUpdateBranch`. */
  function Validate(f: BranchForm): (ok: bool)
    ensures ok <==> !IsBlank(f.name) && !IsBlank(f.address)
  {
    TrimEmptyIffBlank(f.name);
    TrimEmptyIffBlank(f.address);
    !(Trim(f.name) == "" || Trim(f.address) == "")
  }

  /** The request body (`assigned_admin_id` null when unassigned). */
  datatype BranchPayload = BranchPayload(name: string, address: string, assignedAdminId: Option<int>)

  datatype BranchRequest =
    | CreateBranch(body: BranchPayload)            // POST .../super_admin/branches
    | UpdateBranch(id: int, body: BranchPayload)   // PUT .../super_admin/branches/{id}

  /** The request `handleCreateOrUpdateBranch` issues for a valid form. */
  function BuildRequest(f: BranchForm): (r: BranchRequest)
    ensures r.UpdateBranch? <==> f.current.Some?
    ensures r.UpdateBranch? ==> r.id == f.current.value.id
    ensures r.body.name == f.name && r.body.address == f.address
    ensures r.body.assignedAdminId == f.selectedAdmin
  {
    var body := BranchPayload(f.name, f.address, f.selectedAdmin);
    match f.current
    case Some(b) => UpdateBranch(b.id, body)
    case None => CreateBranch(body)
  }

  datatype SubmitResult = SubmitResult(screen: BranchScreen, request: Option<BranchRequest>, alert: Alert, refetch: bool)

  /** `handleCreateOrUpdateBranch`, given the outcome of the request it would
      send: an invalid form sends nothing; success closes the modal and resets
      the form; failure keeps everything. The refetch started on success is
      reported by `refetch`; its own `setLoading(true)` belongs to that
      following `FetchBranchesAndAdmins` step. */
  function Submit(sc: BranchScreen, outcome: Outcome<()>): (r: SubmitResult)
    ensures r.request.Some? <==> !IsBlank(sc.form.name) && !IsBlank(sc.form.address)
    ensures r.request.Some? ==> r.request.value == BuildRequest(sc.form)
    ensures r.request.None? ==> r.screen == sc && r.alert == Alert("Validation Error", RequiredFieldsMessage)
    ensures r.refetch <==> r.request.Some? && outcome.Ok?
    ensures r.refetch ==>
              && !r.screen.modalVisible
              && HasDefaultFields(r.screen.form)
              && r.screen.form.current == sc.form.current
              && r.screen.branches == sc.branches && r.screen.admins == sc.admins
              && r.screen.loading == sc.loading && r.screen.refreshing == sc.refreshing
    ensures r.refetch && sc.form.current.Some? ==> r.alert == Alert("Success", "Branch updated successfully.")
    ensures r.refetch && sc.form.current.None? ==> r.alert == Alert("Success", "Branch created successfully.")
    ensures r.request.Some? && outcome.Err? ==>
              r.screen == sc && r.alert == Alert("Error", MessageOr(outcome.serverMessage, "Failed to save branch."))
  {
    if !Validate(sc.form) then
      SubmitResult(sc, None, Alert("Validation Error", RequiredFieldsMessage), false)
    else
      var request := BuildRequest(sc.form);
      match outcome
      case Ok(_) =>
        var message := if request.UpdateBranch? then "Branch updated successfully." else "Branch created successfully.";
        SubmitResult(sc.(modalVisible := false, form := ResetForm(sc.form)), Some(request),
                     Alert("Success", message), true)
      case Err(m) =>
        SubmitResult(sc, Some(request), Alert("Error", MessageOr(m, "Failed to save branch.")), false)
  }

  /** The admin picker items: "None", then one per offered admin, then the
      edited branch's own admin (labelled with its `admin_name`) when it has a
      truthy id that no offered admin carries. A truthy id is never the null
      value of the "None" item, so looking it up among all items before the
      extra one is the same as looking it up among the offered admins. */
  function AdminPickerItems(admins: seq<AdminChoice>, current: Option<Branch>): (r: seq<PickerItem>)
    ensures |admins| + 1 <= |r| <= |admins| + 2
    ensures r[0] == PickerItem(Some("None"), None)
    ensures forall i :: 0 <= i < |admins| ==> r[i + 1] == PickerItem(Some(admins[i].name), Some(admins[i].id))
    ensures |r| > |admins| + 1 <==>
              current.Some? && TruthyId(current.value.adminId) && !Offers(r[..|admins| + 1], current.value.adminId)
    ensures |r| > |admins| + 1 ==> r[|admins| + 1] == PickerItem(current.value.adminName, current.value.adminId)
    ensures current.Some? && TruthyId(current.value.adminId) ==> Offers(r, current.value.adminId)
  {
    var items := [PickerItem(Some("None"), None)]
                 + seq(|admins|, i requires 0 <= i < |admins| => PickerItem(Some(admins[i].name), Some(admins[i].id)));
    match current
    case Some(b) =>
      if TruthyId(b.adminId) && !Offers(items, b.adminId) then
        var r := items + [PickerItem(b.adminName, b.adminId)];
        assert r[..|items|] == items;
        assert r[|items|].value == b.adminId;
        r
      else
        assert TruthyId(b.adminId) ==> items[OfferIndex(items, b.adminId)].value == b.adminId;
        items
    case None => items
  }

  /** `fetchBranchesAndAdmins`, given the two request outcomes (the admin
      request is only sent after the branch request succeeded): both lists are
      replaced only when both succeed; loading and refreshing end either way. */
  function FetchBranchesAndAdmins(sc: BranchScreen, branches: Outcome<seq<Branch>>, admins: Outcome<seq<AdminChoice>>)
    : (r: (BranchScreen, Option<Alert>))
    ensures !r.0.loading && !r.0.refreshing
    ensures r.0.modalVisible == sc.modalVisible && r.0.form == sc.form
    ensures branches.Ok? && admins.Ok? ==>
              r.0.branches == branches.data && r.0.admins == admins.data && r.1.None?
    ensures !(branches.Ok? && admins.Ok?) ==>
              r.0.branches == sc.branches && r.0.admins == sc.admins
              && r.1 == Some(Alert("Error", "Failed to load branches or admins."))
  {
    var done := sc.(loading := false, refreshing := false);
    if branches.Ok? && admins.Ok? then
      (done.(branches := branches.data, admins := admins.data), None)
    else
      (done, Some(Alert("Error", "Failed to load branches or admins.")))
  }

  /** `onRefresh`: the pull-to-refresh indicator is set, then the fetch runs;
      it is cleared again whatever the outcome. */
  function Refresh(sc: BranchScreen, branches: Outcome<seq<Branch>>, admins: Outcome<seq<AdminChoice>>)
    : (r: (BranchScreen, Option<Alert>))
    ensures !r.0.refreshing && !r.0.loading
    ensures r.0.modalVisible == sc.modalVisible && r.0.form == sc.form
    ensures branches.Ok? && admins.Ok? ==>
              r.0.branches == branches.data && r.0.admins == admins.data && r.1.None?
    ensures !(branches.Ok? && admins.Ok?) ==>
              r.0.branches == sc.branches && r.0.admins == sc.admins && r.1.Some?
  {
    FetchBranchesAndAdmins(sc.(refreshing := true), branches, admins)
  }

  /** A freshly reset form can never be submitted. */
  lemma ResetFormIsRejected(sc: BranchScreen, outcome: Outcome<()>)
    ensures Submit(OpenCreateModal(sc), outcome).request.None?
  {
  }

  /** Editing a branch and submitting it unchanged sends a PUT to that branch
      carrying its own fields and its (truthy) admin. */
  lemma EditedBranchSubmitsUpdate(sc: BranchScreen, branch: Branch, outcome: Outcome<()>)
    requires !IsBlank(branch.name) && !IsBlank(branch.address)
    ensures var r := Submit(OpenEditModal(sc, branch), outcome);
            && r.request == Some(UpdateBranch(branch.id, BranchPayload(branch.name, branch.address, IdOrNull(branch.adminId))))
            && (outcome.Ok? ==> !r.screen.modalVisible)
  {
  }

  /** The branch being edited keeps its pre-selected admin among the picker
      items, even when that admin is no longer offered as unassigned. */
  lemma EditedBranchAdminSelectable(sc: BranchScreen, branch: Branch)
    requires TruthyId(branch.adminId)
    ensures var sc' := OpenEditModal(sc, branch);
            Offers(AdminPickerItems(sc'.admins, sc'.form.current), sc'.form.selectedAdmin)
  {
    var sc' := OpenEditModal(sc, branch);
    assert sc'.form.selectedAdmin == branch.adminId;
  }

  /** A pull-to-refresh leaves the same state as the fetch run on mount: the
      indicator it sets is cleared again whatever the outcome. */
  lemma RefreshActsAsFetch(sc: BranchScreen, branches: Outcome<seq<Branch>>, admins: Outcome<seq<AdminChoice>>)
    ensures Refresh(sc, branches, admins) == FetchBranchesAndAdmins(sc, branches, admins)
  {
  }

  /** A list fetch that lands while a branch is being edited keeps the form,
      and the branch's pre-selected admin stays among the picker items,
      whatever the newly fetched admin list holds. */
  lemma FetchDuringEditKeepsAdminSelectable(sc: BranchScreen, branch: Branch,
                                            branches: Outcome<seq<Branch>>, admins: Outcome<seq<AdminChoice>>)
    requires TruthyId(branch.adminId)
    ensures var r := Refresh(OpenEditModal(sc, branch), branches, admins).0;
            && r.modalVisible && r.form.selectedAdmin == branch.adminId
            && Offers(AdminPickerItems(r.admins, r.form.current), r.form.selectedAdmin)
  {
    var r := Refresh(OpenEditModal(sc, branch), branches, admins).0;
    assert r.form.current == Some(branch);
  }
}

=== FILE: common.dfy ===
/** Shared vocabulary of the admin console model: nullable values, the
    outcome of a backend request, alert dialogs, and the few JavaScript
    string operations the screens rely on (`trim`, truthiness,
    `split('T')[0]`). */
module Common {

  /** A JavaScript value that may be `null` or `undefined`. The screens test
      both alike (with `== null` or truthiness); where a JSON request body
      tells them apart (an `undefined` field is dropped, a `null` one is
      sent), the payload type of that request records which one is meant. */
  datatype Option<+T> = None | Some(value: T) {
    function GetOr(default: T): T {
      match this
      case Some(v) => v
      case None => default
    }
  }

  /** The result of one backend request, as seen by a screen handler: either
      the response body, or a rejection carrying `error.response?.data?.message`
      (absent when the error did not come from the server). */
  datatype Outcome<+T> = Ok(data: T) | Err(serverMessage: Option<string>)

  /** An `Alert.alert(title, message)` dialog. */
  datatype Alert = Alert(title: string, message: string)

  /** JavaScript truthiness of a nullable string: present and non-empty. */
  predicate Truthy(s: Option<string>) {
    s.Some? && s.value != ""
  }

  /** JavaScript truthiness of a nullable numeric id: present and non-zero. */
  predicate TruthyId(n: Option<int>) {
    n.Some? && n.value != 0
  }

  /** `x || null` on a nullable numeric id: falsy ids collapse to null. */
  function IdOrNull(n: Option<int>): (r: Option<int>)
    ensures r.Some? <==> TruthyId(n)
    ensures r.Some? ==> r == n
  {
    if TruthyId(n) then n else None
  }

  /** `message || fallback`: the server's message when it is truthy. */
  function MessageOr(message: Option<string>, fallback: string): (r: string)
    ensures Truthy(message) ==> r == message.value
    ensures !Truthy(message) ==> r == fallback
  {
    match message
    case Some(m) => if m != "" then m else fallback
    case None => fallback
  }

  /** One rendered `Picker.Item`: its label and its value (a nullable id). */
  datatype PickerItem = PickerItem(text: Option<string>, value: Option<int>)

  /** Some picker item carries this value, so the picker can show it as the
      selection. */
  predicate Offers(items: seq<PickerItem>, v: Option<int>) {
    exists i :: 0 <= i < |items| && items[i].value == v
  }

  /** The position of an offered value. */
  ghost function OfferIndex(items: seq<PickerItem>, v: Option<int>): (k: nat)
    requires Offers(items, v)
    ensures k < |items| && items[k].value == v
  {
    var k :| 0 <= k < |items| && items[k].value == v;
    k
  }

  /** The characters `String.prototype.trim` removes: the WhiteSpace and
      LineTerminator productions of section 12.2 and 12.3 of ECMA-262
      (space separators of Unicode category Zs included). */
  predicate IsJsSpace(c: char) {
    c in {'\t', '\n', '\U{000B}', '\U{000C}', '\r', ' ', '\U{00A0}', '\U{1680}',
          '\U{2000}', '\U{2001}', '\U{2002}', '\U{2003}', '\U{2004}', '\U{2005}',
          '\U{2006}', '\U{2007}', '\U{2008}', '\U{2009}', '\U{200A}',
          '\U{2028}', '\U{2029}', '\U{202F}', '\U{205F}', '\U{3000}', '\U{FEFF}'}
  }

  /** Every character is white space (the empty string included). */
  predicate IsBlank(s: string) {
    forall i :: 0 <= i < |s| ==> IsJsSpace(s[i])
  }

  /** The end of the run of white space starting at index `k`. */
  function SpaceRunEnd(s: string, k: nat): (n: nat)
    requires k <= |s|
    ensures k <= n <= |s|
    ensures forall i :: k <= i < n ==> IsJsSpace(s[i])
    ensures n < |s| ==> !IsJsSpace(s[n])
    decreases |s| - k
  {
    if k < |s| && IsJsSpace(s[k]) then SpaceRunEnd(s, k + 1) else k
  }

  /** The start of the run of white space ending just before index `k`. */
  function SpaceRunStart(s: string, k: nat): (n: nat)
    requires k <= |s|
    ensures n <= k
    ensures forall i :: n <= i < k ==> IsJsSpace(s[i])
    ensures n > 0 ==> !IsJsSpace(s[n - 1])
  {
    if k > 0 && IsJsSpace(s[k - 1]) then SpaceRunStart(s, k - 1) else k
  }

  /** `s.trim()`: drops the leading and then the trailing white space. */
  function Trim(s: string): string {
    var t := s[SpaceRunEnd(s, 0)..];
    t[..SpaceRunStart(t, |t|)]
  }

  /** `!s.trim()` and `s.trim() === ''` both hold exactly for blank strings. */
  lemma TrimEmptyIffBlank(s: string)
    ensures Trim(s) == "" <==> IsBlank(s)
  {
  }

  /** `s.split(c)[0]`: the part of `s` before the first `c`, or all of `s`. */
  function BeforeFirst(s: string, c: char): (r: string)
    ensures |r| <= |s| && r == s[..|r|]
    ensures c !in r
    ensures |r| < |s| ==> s[|r|] == c
  {
    if s == [] then []
    else if s[0] == c then []
    else [s[0]] + BeforeFirst(s[1..], c)
  }

  /** A calendar instant, represented by its `toISOString()` text
      (`YYYY-MM-DDTHH:mm:ss.sssZ`); producing that text is not modelled. */
  datatype Instant = Instant(iso: string)

  /** `date.toISOString().split('T')[0]`, the `YYYY-MM-DD` request parameter. */
  function IsoDay(d: Instant): string {
    BeforeFirst(d.iso, 'T')
  }

  /** On a well-formed ISO text the request parameter is exactly its date part. */
  lemma {:induction false} IsoDayOfIsoText(day: string, time: string)
    requires 'T' !in day
    ensures IsoDay(Instant(day + "T" + time)) == day
  {
    BeforeFirstOfSplit(day, time, 'T');
  }

  lemma {:induction false} BeforeFirstOfSplit(head: string, tail: string, c: char)
    requires c !in head
    ensures BeforeFirst(head + [c] + tail, c) == head
  {
    if head != [] {
      assert (head + [c] + tail)[1..] == head[1..] + [c] + tail;
      BeforeFirstOfSplit(head[1..], tail, c);
    }
  }
}

=== FILE: complaint_detail.dfy ===
/** The complaint detail screen: loading a complaint into the status/notes
    form, the status-change guard and request, and the choice of what to
    render. */
module ComplaintDetail {
  import opened Common
  import ComplaintList

  /** A complaint as returned by the detail request. */
  datatype Complaint = Complaint(
    id: int,
    subject: string,
    description: string,
    userEmail: string,
    status: string,
    adminNotes: Option<string>,
    branchName: Option<string>,
    categoryName: Option<string>)

  /** The screen state; `complaintId` is the route parameter. */
  datatype DetailScreen = DetailScreen(
    complaintId: int,
    complaint: Option<Complaint>,
    loading: bool,
    newStatus: string,
    adminNotes: string)

  /** The statuses the picker offers, in order. */
  const SelectableStatuses: seq<string> := ["open", "pending", "resolved"]

  function InitialScreen(complaintId: int): (r: DetailScreen)
    ensures r.complaintId == complaintId
    ensures r.complaint.None? && r.loading
    ensures r.newStatus == "" && r.adminNotes == ""
  {
    DetailScreen(complaintId, None, true, "", "")
  }

  /** `fetchComplaintDetails`, given the request outcome: on success the form
      takes the complaint's status and notes (absent or empty notes read as
      empty); on failure nothing but the loading flag changes. */
  function FetchComplaintDetails(sc: DetailScreen, outcome: Outcome<Complaint>): (r: (DetailScreen, Option<Alert>))
    ensures !r.0.loading && r.0.complaintId == sc.complaintId
    ensures outcome.Ok? ==>
              && r.0.complaint == Some(outcome.data)
              && r.0.newStatus == outcome.data.status
              && (Truthy(outcome.data.adminNotes) ==> r.0.adminNotes == outcome.data.adminNotes.value)
              && (!Truthy(outcome.data.adminNotes) ==> r.0.adminNotes == "")
              && r.1.None?
    ensures outcome.Err? ==>
              r.0 == sc.(loading := false) && r.1 == Some(Alert("Error", "Failed to load complaint details."))
  {
    match outcome
    case Ok(c) =>
      (DetailScreen(sc.complaintId, Some(c), false, c.status, MessageOr(c.adminNotes, "")), None)
    case Err(_) =>
      (sc.(loading := false), Some(Alert("Error", "Failed to load complaint details.")))
  }

  /** The status-change request body. */
  datatype StatusPayload = StatusPayload(status: string, adminNotes: string)

  /** PUT .../normal_admin/complaints/{complaintId}/status */
  datatype StatusRequest = UpdateStatus(complaintId: int, body: StatusPayload)

  /** The request sent (if any), the alert raised, and whether the screen
      navigates back. The screen state itself is never changed. */
  datatype ChangeResult = ChangeResult(request: Option<StatusRequest>, alert: Alert, goBack: bool)

  /** `handleChangeStatus`, given the outcome of the request it would send. */
  function HandleChangeStatus(sc: DetailScreen, outcome: Outcome<()>): (r: ChangeResult)
    ensures r.request.None? <==> sc.newStatus == ""
    ensures r.request.None? ==> r.alert == Alert("Validation Error", "Please select a status.") && !r.goBack
    ensures r.request.Some? ==>
              r.request.value == UpdateStatus(sc.complaintId, StatusPayload(sc.newStatus, sc.adminNotes))
    ensures r.goBack <==> r.request.Some? && outcome.Ok?
    ensures r.goBack ==> r.alert == Alert("Success", "Complaint status updated successfully!")
    ensures r.request.Some? && outcome.Err? ==>
              r.alert == Alert("Error", MessageOr(outcome.serverMessage, "Failed to update status."))
  {
    if sc.newStatus == "" then
      ChangeResult(None, Alert("Validation Error", "Please select a status."), false)
    else
      var request := UpdateStatus(sc.complaintId, StatusPayload(sc.newStatus, sc.adminNotes));
      match outcome
      case Ok(_) => ChangeResult(Some(request), Alert("Success", "Complaint status updated successfully!"), true)
      case Err(m) => ChangeResult(Some(request), Alert("Error", MessageOr(m, "Failed to update status.")), false)
  }

  /** What the screen renders. */
  datatype DetailView = Spinner | NotFound | Details(complaint: Complaint, statusStyle: string)

  /** The render choice: the spinner while loading, then the not-found text
      when there is no complaint, otherwise the details with the status badge
      style. */
  function Render(sc: DetailScreen): (v: DetailView)
    ensures v == Spinner <==> sc.loading
    ensures v == NotFound <==> !sc.loading && sc.complaint.None?
    ensures v.Details? <==> !sc.loading && sc.complaint.Some?
    ensures v.Details? ==> v.complaint == sc.complaint.value
    ensures v.Details? ==> v.statusStyle == ComplaintList.StyleKey(v.complaint.status)
  {
    if sc.loading then Spinner
    else match sc.complaint
      case None => NotFound
      case Some(c) => Details(c, ComplaintList.StyleKey(c.status))
  }

  /** A failed first load shows "Complaint not found." and no details. */
  lemma FailedLoadShowsNotFound(complaintId: int, message: Option<string>)
    ensures Render(FetchComplaintDetails(InitialScreen(complaintId), Err(message)).0) == NotFound
  {
  }

  /** Loading a complaint with a non-empty status and updating right away
      sends that status and its notes back for the same id. */
  lemma LoadThenUpdateSendsFetchedStatus(complaintId: int, c: Complaint, outcome: Outcome<()>)
    requires c.status != ""
    ensures var sc := FetchComplaintDetails(InitialScreen(complaintId), Ok(c)).0;
            && Render(sc).Details?
            && HandleChangeStatus(sc, outcome).request
               == Some(UpdateStatus(complaintId, StatusPayload(c.status, c.adminNotes.GetOr(""))))
  {
  }

  /** Tapping a list item opens the detail screen for that complaint: it
      loads that id, and a status change made there is sent for that id. */
  lemma ItemPressTargetsThatComplaint(item: ComplaintList.ComplaintSummary, c: Complaint, outcome: Outcome<()>)
    requires c.status != ""
    ensures var sc := InitialScreen(ComplaintList.OnItemPress(item).complaintId);
            && sc.complaintId == item.id
            && HandleChangeStatus(FetchComplaintDetails(sc, Ok(c)).0, outcome).request.value.complaintId == item.id
  {
  }

  /** Any status chosen in the picker passes the guard. */
  lemma PickerChoicePassesGuard(sc: DetailScreen, choice: string, outcome: Outcome<()>)
    requires choice in SelectableStatuses
    ensures HandleChangeStatus(sc.(newStatus := choice), outcome).request.Some?
  {
  }

  /** The list screen's status filter offers exactly the sentinel followed by
      the statuses selectable here, and each of those has a badge style. */
  lemma FilterDomainMatchesSelectableStatuses()
    ensures ComplaintList.StatusFilterValues == [ComplaintList.AllStatuses] + SelectableStatuses
    ensures forall s :: s in SelectableStatuses ==> ComplaintList.StyleKey(s) in ComplaintList.StyledStatusKeys
  {
    forall s | s in SelectableStatuses
      ensures ComplaintList.StyleKey(s) in ComplaintList.StyledStatusKeys
    {
      ComplaintList.StyledExactlyForKnownStatuses(s);
      assert ComplaintList.AsciiLower(s) == s;
    }
  }
}

=== FILE: complaint_list.dfy ===
/** The branch admin's complaint list: the mapping from the filter controls
    to the request's query parameters, the status filter domain, the status
    badge style key and the navigation to a complaint. */
module ComplaintList {
  import opened Common

  /** A complaint as listed by the backend. */
  datatype ComplaintSummary = ComplaintSummary(id: int, subject: string, status: string, description: string)

  datatype ListScreen = ListScreen(
    complaints: seq<ComplaintSummary>,
    loading: bool,
    refreshing: bool,
    selectedStatus: string,
    selectedDate: Option<Instant>,
    searchQuery: string)

  /** The sentinel status filter value meaning "no status filter". */
  const AllStatuses: string := "all"

  /** The values the status picker offers, in order. */
  const StatusFilterValues: seq<string> := [AllStatuses, "open", "pending", "resolved"]

  function InitialScreen(): (r: ListScreen)
    ensures r.selectedStatus == AllStatuses && r.selectedStatus in StatusFilterValues
    ensures r.selectedDate.None? && r.searchQuery == ""
    ensures r.loading && !r.refreshing && r.complaints == []
  {
    ListScreen([], true, false, AllStatuses, None, "")
  }

  /** The query parameters of the list request (a null parameter is not
      sent). */
  datatype ComplaintQuery = ComplaintQuery(status: Option<string>, date: Option<string>, search: Option<string>)

  /** The parameters `fetchComplaints` sends for the current filters. */
  function QueryParams(sc: ListScreen): (q: ComplaintQuery)
    ensures q.status.None? <==> sc.selectedStatus == AllStatuses
    ensures q.status.Some? ==> q.status.value == sc.selectedStatus
    ensures q.date.None? <==> sc.selectedDate.None?
    ensures q.date.Some? ==>
              var iso := sc.selectedDate.value.iso;
              && 'T' !in q.date.value && q.date.value <= iso
              && (|q.date.value| < |iso| ==> iso[|q.date.value|] == 'T')
    ensures q.search.None? <==> IsBlank(sc.searchQuery)
    ensures q.search.Some? ==> q.search.value == sc.searchQuery
  {
    TrimEmptyIffBlank(sc.searchQuery);
    ComplaintQuery(
      if sc.selectedStatus == AllStatuses then None else Some(sc.selectedStatus),
      match sc.selectedDate
      case Some(d) => Some(IsoDay(d))
      case None => None,
      if Trim(sc.searchQuery) == "" then None else Some(sc.searchQuery))
  }

  /** Every picker value but the sentinel is sent as is. */
  lemma StatusFilterParams()
    ensures forall v :: v in StatusFilterValues ==>
              QueryParams(InitialScreen().(selectedStatus := v)).status == (if v == AllStatuses then None else Some(v))
    ensures QueryParams(InitialScreen()) == ComplaintQuery(None, None, None)
  {
  }

  /** A date chosen in the picker is sent as its `YYYY-MM-DD` part. */
  lemma SelectedDateSendsDay(sc: ListScreen, day: string, time: string)
    requires 'T' !in day
    requires sc.selectedDate == Some(Instant(day + "T" + time))
    ensures QueryParams(sc).date == Some(day)
  {
    IsoDayOfIsoText(day, time);
  }

  /** `fetchComplaints`, given the request outcome: the list is replaced on
      success and kept on failure; loading and refreshing end either way. */
  function FetchComplaints(sc: ListScreen, outcome: Outcome<seq<ComplaintSummary>>): (r: ListScreen)
    ensures !r.loading && !r.refreshing
    ensures outcome.Ok? ==> r.complaints == outcome.data
    ensures outcome.Err? ==> r.complaints == sc.complaints
    ensures r.selectedStatus == sc.selectedStatus && r.selectedDate == sc.selectedDate && r.searchQuery == sc.searchQuery
  {
    var done := sc.(loading := false, refreshing := false);
    match outcome
    case Ok(items) => done.(complaints := items)
    case Err(_) => done
  }

  /** A refresh or a failed fetch leaves the filters alone, so the next
      request carries the same parameters. */
  lemma FetchKeepsQuery(sc: ListScreen, outcome: Outcome<seq<ComplaintSummary>>)
    ensures QueryParams(FetchComplaints(sc, outcome)) == QueryParams(sc)
    ensures QueryParams(FetchComplaints(sc.(refreshing := true), outcome)) == QueryParams(sc)
  {
  }

  /** A navigation request: the route name and its `complaintId` parameter. */
  datatype Navigation = Navigate(route: string, complaintId: int)

  /** Tapping a list item opens that complaint's detail screen. */
  function OnItemPress(item: ComplaintSummary): (n: Navigation)
    ensures n.route == "ComplaintDetail" && n.complaintId == item.id
  {
    Navigate("ComplaintDetail", item.id)
  }

  /** `toLowerCase` on one character (ASCII letters only). */
  function LowerChar(c: char): char {
    if 'A' <= c <= 'Z' then (c as int + 32) as char else c
  }

  /** `toLowerCase` on a string (ASCII letters only). */
  function AsciiLower(s: string): (r: string)
    ensures |r| == |s|
    ensures forall i :: 0 <= i < |s| ==> r[i] == LowerChar(s[i])
  {
    seq(|s|, i requires 0 <= i < |s| => LowerChar(s[i]))
  }

  /** The style key of a status badge: `status.toLowerCase() + 'Status'`. */
  function StyleKey(status: string): (r: string)
    ensures |r| == |status| + 6
    ensures r[|status|..] == "Status"
    ensures forall i :: 0 <= i < |status| ==> r[i] == LowerChar(status[i])
  {
    AsciiLower(status) + "Status"
  }

  /** The keys of the three status colour styles in the style sheet. */
  const StyledStatusKeys: set<string> := {"openStatus", "pendingStatus", "resolvedStatus"}

  /** A badge gets one of the three status colour styles exactly when its
      status lower-cases to one of the three known statuses. */
  lemma StyledExactlyForKnownStatuses(status: string)
    ensures StyleKey(status) in StyledStatusKeys <==> AsciiLower(status) in {"open", "pending", "resolved"}
  {
    var low := AsciiLower(status);
    assert StyleKey(status) == low + "Status";
    assert "openStatus" == "open" + "Status";
    assert "pendingStatus" == "pending" + "Status";
    assert "resolvedStatus" == "resolved" + "Status";
    SuffixCancels(low, "open", "Status");
    SuffixCancels(low, "pending", "Status");
    SuffixCancels(low, "resolved", "Status");
  }

  lemma SuffixCancels(a: string, b: string, suffix: string)
    ensures a + suffix == b + suffix <==> a == b
  {
    if a + suffix == b + suffix {
      assert |a| == |b|;
      assert a == (a + suffix)[..|a|];
      assert b == (b + suffix)[..|b|];
    }
  }

  /** Status text is matched case-insensitively: a status and its
      lower-cased form share one style key. */
  lemma StyleKeyIgnoresCase(status: string)
    ensures StyleKey(AsciiLower(status)) == StyleKey(status)
  {
  }
}

=== FILE: credential_store.dfy ===
/** The persisted key-value credential store (AsyncStorage) as the session
    sees it: two string entries, each of whose operations may throw. Whether a
    call throws is an input, so that every failure path of the callers can be
    stated. */
module CredentialStore {
  import opened Common

  /** The two persisted entries, stored under the keys "userToken" and
      "userRole". */
  datatype Key = UserToken | UserRole

  type Store = map<Key, string>

  /** The completion of one asynchronous storage call: it resolves with a
      value or rejects. */
  datatype Io<+T> = Done(value: T) | Threw

  /** The stored value of an entry, `null` when absent. */
  function Lookup(s: Store, k: Key): (r: Option<string>)
    ensures r.Some? <==> k in s
    ensures r.Some? ==> r.value == s[k]
  {
    if k in s then Some(s[k]) else None
  }

  /** `getItem(key)`: resolves with the stored value or null. */
  function GetItem(s: Store, k: Key, fails: bool): (r: Io<Option<string>>)
    ensures r.Threw? <==> fails
    ensures r.Done? ==> r.value == Lookup(s, k)
  {
    if fails then Threw else Done(Lookup(s, k))
  }

  /** `setItem(key, value)`: resolves with the updated store; the other entry
      is untouched. */
  function SetItem(s: Store, k: Key, v: string, fails: bool): (r: Io<Store>)
    ensures r.Threw? <==> fails
    ensures r.Done? ==> Lookup(r.value, k) == Some(v)
    ensures r.Done? ==> forall k' :: k' != k ==> Lookup(r.value, k') == Lookup(s, k')
  {
    if fails then Threw else Done(s[k := v])
  }

  /** `removeItem(key)`: resolves with the store lacking that entry; the other
      entry is untouched. */
  function RemoveItem(s: Store, k: Key, fails: bool): (r: Io<Store>)
    ensures r.Threw? <==> fails
    ensures r.Done? ==> Lookup(r.value, k) == None
    ensures r.Done? ==> forall k' :: k' != k ==> Lookup(r.value, k') == Lookup(s, k')
  {
    if fails then Threw else Done(s - {k})
  }
}

=== FILE: dashboard.dfy ===
/** The super-admin dashboard: the filter option lists, the mapping from the
    filters to the summary request's query parameters, and the choice of what
    to render. */
module Dashboard {
  import opened Common

  /** A picker value: the `'all'` sentinel is a string, fetched ids may be
      strings or numbers. */
  datatype FilterValue = Str(s: string) | Num(n: int)

  /** The sentinel filter value meaning "no filter". */
  const AllFilter: FilterValue := Str("all")

  /** One entry of a filter picker. */
  datatype FilterOption = FilterOption(id: FilterValue, name: string)

  /** The summary counts of the dashboard response. */
  datatype DashboardData = DashboardData(totalComplaints: int, openComplaints: int, resolvedComplaints: int, pendingComplaints: int)

  datatype DashboardScreen = DashboardScreen(
    data: Option<DashboardData>,
    loading: bool,
    refreshing: bool,
    selectedDate: Instant,
    selectedBranch: FilterValue,
    selectedCategory: FilterValue,
    branches: seq<FilterOption>,
    categories: seq<FilterOption>)

  /** The initial state; `today` stands for `new Date()`. */
  function InitialScreen(today: Instant): (r: DashboardScreen)
    ensures r.selectedBranch == AllFilter && r.selectedCategory == AllFilter
    ensures r.selectedDate == today
    ensures r.data.None? && r.loading && !r.refreshing
    ensures r.branches == [] && r.categories == []
  {
    DashboardScreen(None, true, false, today, AllFilter, AllFilter, [], [])
  }

  /** The query parameters of the summary request. */
  datatype DashboardQuery = DashboardQuery(date: string, branchId: Option<FilterValue>, category: Option<FilterValue>)

  /** A filter value as a query parameter: the sentinel becomes null. */
  function FilterParam(v: FilterValue): (p: Option<FilterValue>)
    ensures p.None? <==> v == AllFilter
    ensures p.Some? ==> p.value == v
  {
    if v == AllFilter then None else Some(v)
  }

  /** The parameters `fetchDashboardData` sends for the current filters. */
  function QueryParams(sc: DashboardScreen): (q: DashboardQuery)
    ensures q.date == IsoDay(sc.selectedDate)
    ensures q.branchId.None? <==> sc.selectedBranch == AllFilter
    ensures q.branchId.Some? ==> q.branchId.value == sc.selectedBranch
    ensures q.category.None? <==> sc.selectedCategory == AllFilter
    ensures q.category.Some? ==> q.category.value == sc.selectedCategory
  {
    DashboardQuery(IsoDay(sc.selectedDate), FilterParam(sc.selectedBranch), FilterParam(sc.selectedCategory))
  }

  /** A filter list: the sentinel entry, then the fetched entries in order. */
  function WithSentinel(caption: string, fetched: seq<FilterOption>): (r: seq<FilterOption>)
    ensures |r| == |fetched| + 1
    ensures r[0] == FilterOption(AllFilter, caption)
    ensures r[1..] == fetched
  {
    [FilterOption(AllFilter, caption)] + fetched
  }

  /** `fetchFiltersData`, given the two request outcomes (the category request
      is only sent after the branch request succeeded): both lists are set
      only when both succeed. */
  function FetchFiltersData(sc: DashboardScreen, branches: Outcome<seq<FilterOption>>, categories: Outcome<seq<FilterOption>>)
    : (r: DashboardScreen)
    ensures branches.Ok? && categories.Ok? ==>
              && |r.branches| == |branches.data| + 1 && r.branches[0] == FilterOption(AllFilter, "All Branches")
              && r.branches[1..] == branches.data
              && |r.categories| == |categories.data| + 1 && r.categories[0] == FilterOption(AllFilter, "All Categories")
              && r.categories[1..] == categories.data
    ensures !(branches.Ok? && categories.Ok?) ==> r == sc
    ensures r.data == sc.data && r.loading == sc.loading && r.refreshing == sc.refreshing
              && r.selectedDate == sc.selectedDate
              && r.selectedBranch == sc.selectedBranch && r.selectedCategory == sc.selectedCategory
  {
    if branches.Ok? && categories.Ok? then
      sc.(branches := WithSentinel("All Branches", branches.data),
          categories := WithSentinel("All Categories", categories.data))
    else sc
  }

  /** `fetchDashboardData`, given the request outcome: the data is replaced on
      success and kept on failure; loading and refreshing end either way. */
  function FetchDashboardData(sc: DashboardScreen, outcome: Outcome<Option<DashboardData>>): (r: DashboardScreen)
    ensures !r.loading && !r.refreshing
    ensures outcome.Ok? ==> r.data == outcome.data
    ensures outcome.Err? ==> r.data == sc.data
    ensures r.branches == sc.branches && r.categories == sc.categories
    ensures r.selectedDate == sc.selectedDate
    ensures r.selectedBranch == sc.selectedBranch && r.selectedCategory == sc.selectedCategory
  {
    var done := sc.(loading := false, refreshing := false);
    match outcome
    case Ok(d) => done.(data := d)
    case Err(_) => done
  }

  /** What the summary area renders. */
  datatype DashboardView = Spinner | Cards(data: DashboardData) | NoData

  /** The render choice: the spinner while loading, the cards when there is
      data, otherwise the "No dashboard data available." text. */
  function Render(sc: DashboardScreen): (v: DashboardView)
    ensures v == Spinner <==> sc.loading
    ensures v.Cards? <==> !sc.loading && sc.data.Some?
    ensures v.Cards? ==> v.data == sc.data.value
    ensures v == NoData <==> !sc.loading && sc.data.None?
  {
    if sc.loading then Spinner
    else match sc.data
      case Some(d) => Cards(d)
      case None => NoData
  }

  /** Choosing the sentinel entry of either loaded filter list clears that
      filter; choosing a fetched entry whose id is not the sentinel sends
      that id. */
  lemma FilterOptionsMapToParams(sc: DashboardScreen, branches: seq<FilterOption>, categories: seq<FilterOption>, i: nat)
    requires i < |branches|
    requires branches[i].id != AllFilter
    ensures var loaded := FetchFiltersData(sc, Ok(branches), Ok(categories));
            && QueryParams(loaded.(selectedBranch := loaded.branches[0].id)).branchId.None?
            && QueryParams(loaded.(selectedCategory := loaded.categories[0].id)).category.None?
            && QueryParams(loaded.(selectedBranch := loaded.branches[i + 1].id)).branchId == Some(branches[i].id)
  {
  }

  /** A failed refresh keeps showing the previous cards. */
  lemma FailedRefreshKeepsCards(sc: DashboardScreen, message: Option<string>)
    requires sc.data.Some?
    ensures Render(FetchDashboardData(sc.(refreshing := true), Err(message))) == Cards(sc.data.value)
  {
  }

  /** On first display the request carries no branch or category filter. */
  lemma InitialQueryUnfiltered(today: Instant)
    ensures QueryParams(InitialScreen(today)) == DashboardQuery(IsoDay(today), None, None)
  {
  }
}

=== FILE: login_screen.dfy ===
/** The login screen's `handleLogin`: the only check made before a session is
    entered. The login request is an input; `signIn` is the session
    transition of the root component. */
module LoginScreen {
  import opened Common
  import opened CredentialStore
  import opened AppSession

  /** The `user` object of the login response; its role is a string or
      absent. */
  datatype LoginUser = LoginUser(role: Option<string>)

  /** The login response body `{ token, user }`. */
  datatype LoginResponse = LoginResponse(token: Option<string>, user: Option<LoginUser>)

  const LoginFailedTitle: string := "Login Failed"
  const MissingCredentialsMessage: string := "Invalid credentials or missing role/token."
  const GenericFailureMessage: string := "Something went wrong."

  /** The session and store after the handler, whether it called `signIn`,
      and the alert it raised, if any. */
  datatype LoginResult = LoginResult(session: Session, store: Store, signInCalled: bool, alert: Option<Alert>)

  /** Both credentials of a response are truthy, so `signIn` is called. */
  predicate AcceptsCredentials(d: LoginResponse) {
    d.user.Some? && Truthy(d.token) && Truthy(d.user.value.role)
  }

  /** `handleLogin`: on a response carrying a truthy token and role, sign in
      with exactly those; otherwise raise a "Login Failed" alert. Every
      rejection inside the `try` (the request, reading `role` of a missing
      `user`, or a storage call inside `signIn`) reaches the same `catch`. */
  function HandleLogin(s: Session, store: Store, response: Outcome<LoginResponse>, f: WriteFaults): (r: LoginResult)
    ensures r.signInCalled <==> response.Ok? && AcceptsCredentials(response.data)
    ensures !r.signInCalled ==> r.session == s && r.store == store
    ensures !r.signInCalled ==> r.alert.Some? && r.alert.value.title == LoginFailedTitle
    ensures response.Err? ==>
              r.alert == Some(Alert(LoginFailedTitle, MessageOr(response.serverMessage, GenericFailureMessage)))
    ensures r.signInCalled ==>
              (r.alert.None? <==> !f.tokenFails && !f.roleFails)
    ensures r.signInCalled && r.alert.None? ==>
              && !r.session.isLoading
              && r.session.token == response.data.token
              && r.session.role == response.data.user.value.role
    ensures r.signInCalled && r.alert.Some? ==>
              r.session == s.(isLoading := true) && r.alert.value == Alert(LoginFailedTitle, GenericFailureMessage)
    ensures response.Ok? && response.data.user.None? ==>
              r.alert == Some(Alert(LoginFailedTitle, GenericFailureMessage))
    ensures response.Ok? && response.data.user.Some? && !AcceptsCredentials(response.data) ==>
              r.alert == Some(Alert(LoginFailedTitle, MissingCredentialsMessage))
  {
    match response
    case Err(m) =>
      LoginResult(s, store, false, Some(Alert(LoginFailedTitle, MessageOr(m, GenericFailureMessage))))
    case Ok(d) =>
      match d.user
      case None =>
        // `user.role` on a missing user throws a TypeError, which has no
        // server response attached.
        LoginResult(s, store, false, Some(Alert(LoginFailedTitle, GenericFailureMessage)))
      case Some(user) =>
        if Truthy(d.token) && Truthy(user.role) then
          var e := SignIn(s, store, d.token.value, user.role.value, f);
          if e.completed then LoginResult(e.session, e.store, true, None)
          else LoginResult(e.session, e.store, true, Some(Alert(LoginFailedTitle, GenericFailureMessage)))
        else
          LoginResult(s, store, false, Some(Alert(LoginFailedTitle, MissingCredentialsMessage)))
  }

  /** An empty or absent token, or an empty or absent role, never enters a
      session and leaves the router where it was. */
  lemma LoginRejectsMissingCredentials(s: Session, store: Store, token: Option<string>, role: Option<string>, f: WriteFaults)
    requires !Truthy(token) || !Truthy(role)
    ensures var r := HandleLogin(s, store, Ok(LoginResponse(token, Some(LoginUser(role)))), f);
            !r.signInCalled && Route(r.session) == Route(s)
            && r.alert == Some(Alert(LoginFailedTitle, MissingCredentialsMessage))
  {
  }

  /** Every authenticated session a login establishes holds a non-empty token
      and a non-empty role, and is routed by that role. */
  lemma LoginEstablishesNonEmptyCredentials(s: Session, store: Store, response: Outcome<LoginResponse>, f: WriteFaults)
    requires HandleLogin(s, store, response, f).signInCalled
    requires HandleLogin(s, store, response, f).alert.None?
    ensures var r := HandleLogin(s, store, response, f);
            && Truthy(r.session.token) && Truthy(r.session.role)
            && Lookup(r.store, UserToken) == r.session.token
            && Lookup(r.store, UserRole) == r.session.role
            && (Route(r.session) == SuperAdminTree <==> r.session.role == Some(SuperAdminRole))
  {
  }
}
